=== FILE: README.md ===
# harth-doxygen symbol graph, in Dafny

A model of the symbol-graph builder in `harth-doxygen.py`. The builder reads a
Doxygen XML export: the root index `index.xml` lists every documented entity,
and each entity's satellite document `<refid>.xml` holds its definition. From
these it builds an id → definition table. It then answers three relationship
queries lazily, caching each answer on first access:
- the namespaces nested in a namespace;
- the classes declared in a namespace;
- the public member functions of a class.

The XML is an immutable `Element` tree: a tag, an attribute map, optional text
and ordered children. The handful of ElementTree queries the builder uses are
pure functions over it. Every Python exception the builder can raise becomes
an `Err` of the `Error` datatype:
- `KeyError` for a missing attribute or an unknown id;
- `MissingElement` for `find` returning `None` and the result being used;
- `MissingText` for an element without text where a string is needed;
- `IOError` for a document that cannot be read.

Modules, leaf first:

- `Wrappers`: `Option`, `Result`, and `MapAll`. `MapAll` is the "build a list,
  abort on the first exception" pattern behind every list the builder makes.
- `Xml`: elements and `attrib[...]`, `attrib.get`, `find`, `findall`,
  `findtext` and `iter`.
- `Paths`: qualified names. `Path(s)` prefixes `/`, splits on `::` or `/`,
  and keeps the names, the slash-joined text and the leaf. The split scans left
  to right and tries `::` before `/`, which is how the alternation `::|/`
  splits.
- `Definitions`: the definition factory. It covers kind dispatch, the common
  fields, the location, the language and function signatures.
- `References`: the rows of the root index and their satellite document
  names.
- `Model`: the table.
  - Insertion overwrites, so the last definition with an id wins.
  - Lookup is by id, and there is a namespace filter.
  - Loading covers the root index and every satellite document it lists.
- `Sections`: the `sectiondef` scan behind a class's member functions. The
  last `public-func` section wins. How a section's members are built is a
  parameter.
- `Relationships`: the three relationship lists and their per-definition
  caches.

Points where the code's behaviour is easy to misread; the model follows the code:

- A duplicate id overwrites the stored definition (last writer wins), at
  `harth-doxygen.py:276`.
- A path keeps the leading empty name produced by the prepended `/`, so
  `names` always has at least two entries.
- A satellite document contributes every `compounddef` anywhere in its tree
  (`iter`), not only the top-level ones.
- `findtext` defaults a missing name to `"_"` and a name without text to
  `""`. These are defaults, not errors.
- `child_functions` stores the empty list in its cache before it scans. A
  first access that fails therefore leaves a list in the cache, and a later
  access returns that list.
- `child_namespaces` and `child_classes` cache nothing when they fail.

## Model

| member | source | states |
|---|---|---|
| Wrappers.MapAll | harth-doxygen.py:119 | A list comprehension over elements succeeds exactly when every element builds. Then it has one result per element, in order. Otherwise its error is that of the first element that fails, and every element before it built. |
| Xml.Attr | harth-doxygen.py:90-91 | `attrib[key]` yields the attribute's value when present and raises `KeyError(key)` exactly when it is absent. |
| Xml.Get | harth-doxygen.py:48-50 | `attrib.get(key)` is `None` exactly when the attribute is absent, and otherwise its value. |
| Xml.Find | harth-doxygen.py:200-201 | `find(tag)` is `None` exactly when no child has that tag, and otherwise the first child that does. |
| Xml.Filter | harth-doxygen.py:139 | `findall(tag)` lists every child with that tag and nothing else. |
| Xml.FindAll | harth-doxygen.py:139 | `e.findall(tag)` lists exactly the direct children with that tag, and no more entries than there are children. |
| Xml.FilterAppend | harth-doxygen.py:147 | `findall` keeps document order: a child after the others is listed after them. |
| Xml.FindIsFirstOfFindAll | harth-doxygen.py:200 | `find(tag)` is the head of `findall(tag)`, and `None` when that list is empty. |
| Xml.FindText | harth-doxygen.py:206-207 | `findtext(key, default)` gives the default when no child has the tag, the first such child's text when it has one, and `""` when that child has no text. |
| Xml.Iter | harth-doxygen.py:119 | `iter(tag)` yields only elements with that tag, and starts with the root when the root has it. |
| Xml.IterComplete | harth-doxygen.py:119 | `iter(tag)` misses nothing: every element anywhere in the subtree, the root included, that has the tag is listed. |
| Xml.IterWithin | harth-doxygen.py:119 | `iter(tag)` lists nothing from outside the subtree. |
| Xml.IterAllAppend | harth-doxygen.py:119 | `iter` keeps document order across siblings: the listing for two runs of siblings is the first run's listing followed by the second's. |
| Xml.FindAllWithinIter | harth-doxygen.py:119 | Every direct child that `findall` lists is also reached by `iter`. |
| Paths.Split | harth-doxygen.py:33 | The split of a string has at least one segment, and no segment contains `/` or `::`. Joining the segments with `/` gives the string with every `::` written as `/`. |
| Paths.PathOf | harth-doxygen.py:30-36 | A path's names are the empty name followed by the split of the input. Its text is those names joined with `/`, which is `/` followed by the input with every `::` read as `/`. Its leaf is the last name. No name contains `/` or `::`. |
| Paths.JoinSplit | harth-doxygen.py:33-35 | Joining the segments of the split with `/` gives the input with every `::` written as `/`. |
| Paths.SplitNoSeparator | harth-doxygen.py:33 | No segment produced by the split contains `/` or `::`. |
| Paths.SplitJoin | harth-doxygen.py:33-35 | Splitting a `/`-joined list of separator-free names gives back that list, so the split inverts the join. |
| Paths.PathOfJoin | harth-doxygen.py:32-36 | The path of `/`-joined separator-free names has exactly those names after the leading empty one, and the last of them as its leaf. |
| Paths.SeparatorsInterchangeable | harth-doxygen.py:32-35 | `::` and `/` are interchangeable: a name and the same name with every `::` written as `/` give the same path. |
| Paths.NormalizeJoinColons | harth-doxygen.py:33 | Reading every `::` as `/` turns a `::`-joined list of plain names into the `/`-joined list. |
| Paths.ColonsAndSlashesAgree | harth-doxygen.py:32-36 | The `::`-joined and the `/`-joined forms of a list of plain names give the same path. Its names are the list after an empty first name, its text is `/` and the slash-joined names, and its leaf is the last name. |
| Paths.FooBarBaz | harth-doxygen.py:30-36 | `Foo::Bar::baz` gives the text `/Foo/Bar/baz`, the leaf `baz` and the names `"", Foo, Bar, baz`. `Foo/Bar/baz` gives the same path. |
| Definitions.LocationOf | harth-doxygen.py:44-54 | Without a `location` element all three fields are absent. With one, each field is present exactly when its attribute is. |
| Definitions.Classify | harth-doxygen.py:121-129 | Kind dispatch is total and exclusive. `namespace` gives a namespace and `class` or `struct` gives a class. `function` gives a function, and every other kind gives a generic compound. |
| Definitions.ReadCommon | harth-doxygen.py:86-92 | Reading the common fields succeeds exactly when `kind`, the id attribute and a name child with text are all present. The kind and id are the attributes. The path is that of the name child's text. A missing `kind` or id raises `KeyError` for that attribute, `kind` first. After them, a missing name child raises the missing-element error and a name child without text the missing-text error. |
| Definitions.BuildType | harth-doxygen.py:199-204 | A type is the text of the first nested `ref` when one exists, and otherwise the type element's own text. It fails exactly when the type element is missing. |
| Definitions.BuildName | harth-doxygen.py:206-207 | A name is `"_"` when the child is missing, and otherwise the child's text or `""`. |
| Definitions.BuildParam | harth-doxygen.py:209-212 | A parameter builds exactly when it has a `type` child, and otherwise raises the missing-element error for `type`. Its type is what `build_type` reads from that child. Its declared name is read with the `"_"` default. |
| Definitions.BuildFunction | harth-doxygen.py:189-197 | A signature builds exactly when the function has a `type` child and every `param` child builds. Any failure is the missing-element error for `type`, of the function or of a parameter. |
| Definitions.FunctionSignature | harth-doxygen.py:192-197 | A built signature carries the function's name and its return type. It has one parameter per `param` child, in document order, each built from that child. |
| Definitions.BuildVariant | harth-doxygen.py:121-129 | Only a function has anything further to read. The built variant stands for the dispatched kind. |
| Definitions.MakeDefinition | harth-doxygen.py:121-135 | The factory succeeds exactly when the element is definable. A missing `kind`, then a missing `id`, raises `KeyError`. A built definition keeps its element, kind and id. Its variant matches the kind. A function's variant is its signature. Once `kind` is read, a failure to read the common fields (a missing id, or a missing or textless name child) raises that error. With the common fields read, a function whose signature fails raises the signature's error. |
| Definitions.DefinitionPath | harth-doxygen.py:131-133 | A definition's path is that of its name child's text. That child is `definition` for a function and `compoundname` otherwise. |
| Definitions.DefinitionOrigin | harth-doxygen.py:135-155 | A definition's language is its `language` attribute, and its location is read from its `location` child. |
| Definitions.MakeDefinitions | harth-doxygen.py:145-150 | A list of elements builds exactly when every element is definable. Each definition is the one built from the element at the same position. Otherwise it raises the error of the first element that is not definable, every earlier one being definable. |
| Definitions.DefinitionsOfDocument | harth-doxygen.py:116-119 | A satellite document yields one definition per `compounddef` in its tree, in document order, each built from that node. A root without `version` raises `KeyError("version")` (`Index.__init__`, line 108). Otherwise it fails exactly when some node is not definable, with the error of the first such node. |
| References.MakeReference | harth-doxygen.py:225-238 | A row reads `kind`, `refid` and the `name` child, and dispatches on the kind like definitions do. Its document name is the id followed by `.xml`. Any failure is the error of reading the common fields: `kind`, then `refid`, then a missing or textless `name` child. |
| References.RefIdOfXmlPath | harth-doxygen.py:238 | Stripping `.xml` is defined exactly on names ending in `.xml`, and appending `.xml` to the result gives the name back. |
| References.XmlPathRoundTrip | harth-doxygen.py:238 | Stripping `.xml` from a row's document name gives back exactly its id. |
| References.XmlPathInjective | harth-doxygen.py:238 | Two rows share a document name exactly when they share an id. |
| References.DispatchAgrees | harth-doxygen.py:225-233 | A row and a definition with the same kind attribute land in the same variant whenever both build. |
| References.ReferencesOfIndex | harth-doxygen.py:220-223 | The root index yields one row per `compound` element, in document order. It succeeds exactly when the root has a `version` and every row reads. A root without `version` raises `KeyError("version")` (`Index.__init__`, line 108), and otherwise a failure is the error of the first row that does not read. |
| References.MakeReferences | harth-doxygen.py:223 | A list of rows reads exactly when every row reads, giving one reference per row in order. Otherwise it raises the error of the first row that does not read. |
| Model.Insert | harth-doxygen.py:274-276 | After inserting a list, the keys are the old keys plus the list's ids, and ids not in the list keep their entries. |
| Model.InsertLastWins | harth-doxygen.py:274-276 | After inserting a list, each of its ids maps to the last definition in the list that carries it. |
| Model.InsertKeyed | harth-doxygen.py:274-276 | Insertion keeps the table invariant: every entry is stored under its own id. |
| Model.InsertBuilt | harth-doxygen.py:274-276 | Inserting factory-built definitions keeps every entry factory-built. |
| Model.LastWriterWins | harth-doxygen.py:276 | Of two definitions with one id, the one inserted later is stored. |
| Model.DuplicatesShareEntry | harth-doxygen.py:276 | Two definitions with one id add at most one key. |
| Model.FindDefinition | harth-doxygen.py:282-283 | Lookup returns the stored entry when the id is present and raises `KeyError(id)` exactly when it is absent. |
| Model.FindAfterInsert | harth-doxygen.py:272-283 | After insertion every inserted definition can be found by its id. What is found carries that id, and for the last one with an id it is that definition. |
| Model.Namespaces | harth-doxygen.py:278-280 | The namespace filter yields exactly the stored definitions whose kind is `namespace`, with no order claimed. |
| Model.NamespacesResolve | harth-doxygen.py:278-283 | Every namespace the filter yields is found by its own id. |
| Model.NamespaceKindIsVariant | harth-doxygen.py:121-124 | A factory-built definition of kind `namespace` is a namespace variant, so the kind filter and the variant agree. |
| Model.ReadDocument | harth-doxygen.py:116-119 | Reading a row's document gives `IOError` when there is no such document. Otherwise it is exactly the definitions of that document: it succeeds when the root has a `version` and every `compounddef` in the tree is definable, and the definitions are factory-built. |
| Model.AddDefinitionIndex | harth-doxygen.py:272-276 | Adding a document succeeds exactly when it reads, and a failed read's error passes through. The keys grow by the document's ids, and other entries stay. The new table is the old one with the document's definitions inserted in order. |
| Model.AddDefinitionIndexSound | harth-doxygen.py:272-276 | Adding a document keeps every entry stored under its own id and factory-built. |
| Model.AddAll | harth-doxygen.py:262-263 | Loading every listed document succeeds exactly when each of them reads. The keys afterwards are exactly the old keys and the ids those documents carry. |
| Model.AddAllKeeps | harth-doxygen.py:272-276 | An entry whose id no document still to be loaded carries keeps its value. |
| Model.AddAllLastWins | harth-doxygen.py:262-276 | Across documents the last writer wins: an id carried by a document and by no later one maps to that document's last definition with the id. |
| Model.AddAllFails | harth-doxygen.py:262-263 | Loading fails with the error of the first document that cannot be read, whatever follows it. |
| Model.AddAllSound | harth-doxygen.py:262-263 | Loading keeps every entry stored under its own id and factory-built. |
| Model.AddAllCovers | harth-doxygen.py:262-263 | After loading, every id of every listed document is a key. |
| Model.LoadDocuments | harth-doxygen.py:262-263 | Loading the listed documents into an empty table succeeds exactly when each of them reads. The table then holds exactly the ids those documents carry, each keyed by its id and factory-built. |
| Model.LoadedLastWins | harth-doxygen.py:262-276 | After loading, an id carried by a document and by no later one is found as that document's last definition with the id. |
| Model.LoadModel | harth-doxygen.py:258-263 | A missing `index.xml` is an `IOError`, and a failure to read the index passes its error through. Once the index reads, the build succeeds exactly when every listed document reads. The table then holds exactly the ids those documents carry, each keyed by its id and factory-built. The table built is the documents of the index rows loaded in index order, so the last writer wins across documents too. |
| Model.ModelLastWins | harth-doxygen.py:258-276 | After a successful build, an id carried by a listed document and by no later one is found as that document's last definition with the id. |
| Model.LoadedDefinitionsResolve | harth-doxygen.py:258-283 | After a successful build, every definition of every listed document is found by its id, carrying that id. |
| Sections.LastPublic | harth-doxygen.py:184-186 | It gives the index of the last `public-func` section among the first n, and none exactly when there is no such section. No later section in range is `public-func`. |
| Sections.ScanSections | harth-doxygen.py:182-187 | The scan succeeds exactly when every section has a `kind` and the public-function ones build. Its result is empty when there is no `public-func` section, and otherwise the members of the last one. On failure it names the section where it stopped and the list held there. The error is `KeyError("kind")` when that section has no `kind`, and otherwise the error of building its members. |
| Sections.ScanStep | harth-doxygen.py:184-186 | A section without `kind` stops the scan with `KeyError("kind")`. A public-function section whose members do not build stops it with that error. A readable section moves the held list on to the list for one more section. |
| Relationships.Resolve | harth-doxygen.py:140-141 | A reference node resolves exactly when it has a `refid` the table knows, to that entry. A missing `refid` raises `KeyError("refid")`, and an unknown id raises `KeyError` of that id. |
| Relationships.BuildDefinitionListByRefid | harth-doxygen.py:137-143 | It builds one entry per `key` child, in order, each the table entry for the child's `refid`. In a keyed table that entry carries the same id. It fails exactly when some child does not resolve, with the `KeyError` of the first such child. |
| Relationships.ResolveAll | harth-doxygen.py:139-143 | Resolving a list of nodes succeeds exactly when each resolves, giving each node's table entry in order. Otherwise it raises the error of the first node that does not resolve. |
| Relationships.ChildNamespaces | harth-doxygen.py:166 | A namespace's child namespaces are the table entries for the `refid`s of its `innernamespace` nodes, one per node and in order. In a keyed table each carries that node's `refid`. The list builds exactly when every node resolves, and otherwise raises the `KeyError` of the first node that does not. |
| Relationships.ChildClasses | harth-doxygen.py:172 | A namespace's classes are the table entries for the `refid`s of its `innerclass` nodes, one per node and in order. In a keyed table each carries that node's `refid`. The list builds exactly when every node resolves, and otherwise raises the `KeyError` of the first node that does not. |
| Relationships.Memoise | harth-doxygen.py:164-167 | A cached list is returned as it is. Otherwise the computed result is returned and stored only when it succeeded. |
| Relationships.ChildNamespacesCached | harth-doxygen.py:163-167 | Accessing `child_namespaces` leaves the other two caches untouched. |
| Relationships.ChildClassesCached | harth-doxygen.py:169-173 | Accessing `child_classes` leaves the other two caches untouched. |
| Relationships.ChildNamespacesFirstAccess | harth-doxygen.py:163-167 | The first access yields one definition per `innernamespace` node, in order, each carrying that node's `refid`, and caches the list. |
| Relationships.ChildNamespacesStable | harth-doxygen.py:163-167 | Once computed, later accesses return the same list and leave the cache as it is, even against another table. |
| Relationships.ChildNamespacesRetry | harth-doxygen.py:163-167 | A failed first access caches nothing, so the next access computes afresh. |
| Relationships.ChildClassesFirstAccess | harth-doxygen.py:169-173 | The first access yields one definition per `innerclass` node, in order, each carrying that node's `refid`, and caches the list. |
| Relationships.ChildClassesStable | harth-doxygen.py:169-173 | Once computed, later accesses return the same list and leave the cache as it is, even against another table. |
| Relationships.ChildClassesRetry | harth-doxygen.py:169-173 | A failed first access caches nothing, so the next access computes afresh. |
| Relationships.ChildFunctions | harth-doxygen.py:180-187 | A class's member functions are the members of its last `public-func` section, or empty when there is none. The scan aborts with `KeyError("kind")` when a section has no `kind`, and with a member's error when a member does not build. |
| Relationships.ChildFunctionsCached | harth-doxygen.py:180-187 | A cached list is returned as it is. The first access always fills the cache, with the result on success. The result succeeds exactly when every section is readable. After a failed first access the cache holds the list the scan held when it stopped: empty, or the members of an earlier `public-func` section. |

## Left out

- File reading and XML parsing are not modelled: `os.path.join` with `xml_root`, `ET.parse` and the verbose trace. A document is its parsed root element, and the file system is a map from file name to root (`Model.ReadDocument`).
- The regular-expression engine is not modelled. `re.split("::|/", ...)` is the left-to-right scan `Paths.SplitFrom`, which tries `::` before `/`.
- `Name` objects are not modelled: a path's names are plain strings, because the wrapper only adds printing.
- `Guid`, every `str`/`__repr__`, the printing driver and `sys.exit` are left out. They are presentation, and `Guid` is nondeterministic and unused.
- The `index` back-reference of every element is not modelled. Lookups take the table as a parameter instead.
- Python object identity is not modelled: definitions compare structurally.
- `Model.Namespaces`: returns a set, because `dict.itervalues()` has no specified order in Python 2.
- `Model.AddAll`: takes the document reader as a parameter (`Model.Reader`), and `Model.LoadModel` plugs in `Model.ReadDocument`. The partial table left by a failed load is not modelled, because the exception ends the run.
- `Relationships.BuildDefinitionList`: has no contract of its own. It is `Definitions.MakeDefinitions` over `findall`, and that contract is what it promises.
- `Relationships.Members`: has no contract of its own either. It is `BuildDefinitionList` over a section's `memberdef` children.
- Location attribute contents are pass-through strings. Only their presence is stated.
- `AttributeError` on a missing element and `TypeError` on missing text are not modelled as Python types: they become `MissingElement` and `MissingText`.

=== FILE: definitions.dfy ===
/**
 Definitions: the typed view of one `compounddef` (or `memberdef`) element
 of a satellite document. Every definition carries the common fields read
 from its element (kind, id, qualified name, location, language); the kind
 attribute picks one of four variants, and a function additionally carries
 its signature.
 */
module Definitions {
  import opened Wrappers
  import opened Xml
  import opened Paths

  /** Doxygen's locally unique identifier, used for links and file names. */
  datatype RefId = RefId(text: string)

  /** Where an entity is declared; each field is absent when not recorded. */
  datatype Location = Location(file: Option<string>, line: Option<string>, column: Option<string>)

  /**
   The location read from an optional `location` element: its `file`,
   `line` and `column` attributes, and nothing at all without the element.
   */
  function LocationOf(node: Option<Element>): (loc: Location)
    ensures node.None? ==> loc.file.None? && loc.line.None? && loc.column.None?
    ensures node.Some? ==> (loc.file.Some? <==> "file" in node.value.attrib)
    ensures node.Some? ==> (loc.line.Some? <==> "line" in node.value.attrib)
    ensures node.Some? ==> (loc.column.Some? <==> "column" in node.value.attrib)
  {
    match node
    case None => Location(None, None, None)
    case Some(l) => Location(Get(l, "file"), Get(l, "line"), Get(l, "column"))
  }

  /** The four variants the `kind` attribute selects between. */
  datatype Kind = NamespaceKind | ClassKind | FunctionKind | CompoundKind

  /**
   Kind dispatch, shared by definitions and references: `namespace`,
   `class` or `struct`, `function`, and everything else.
   */
  function Classify(kind: string): (k: Kind)
    ensures k == NamespaceKind <==> kind == "namespace"
    ensures k == ClassKind <==> kind == "class" || kind == "struct"
    ensures k == FunctionKind <==> kind == "function"
    ensures k == CompoundKind <==> kind != "namespace" && kind != "class" && kind != "struct" && kind != "function"
  {
    if kind == "namespace" then NamespaceKind
    else if kind == "class" || kind == "struct" then ClassKind
    else if kind == "function" then FunctionKind
    else CompoundKind
  }

  /** The fields every element-backed entity has: kind, id and qualified name. */
  datatype Common = Common(kind: string, refid: RefId, path: Path)

  /** The first child of `e` tagged `tag` exists and has text. */
  predicate HasNamedText(e: Element, tag: string) {
    exists i :: 0 <= i < |e.children| && FirstWithTag(e.children, tag, i) && e.children[i].text.Some?
  }

  /** `p` is the path of the text of the first child of `e` tagged `tag`. */
  predicate NamedPath(e: Element, tag: string, p: Path) {
    forall i :: 0 <= i < |e.children| && FirstWithTag(e.children, tag, i) && e.children[i].text.Some? ==> p == PathOf(e.children[i].text.value)
  }

  /**
   Reads the common fields: the `kind` attribute, the id from attribute
   `refidKey`, and the path of the text of child `nameKey`. A missing
   attribute is a KeyError; a missing child or a child without text aborts
   as well.
   */
  function ReadCommon(e: Element, refidKey: string, nameKey: string): (r: Result<Common, Error>)
    ensures r.Ok? <==> "kind" in e.attrib && refidKey in e.attrib && HasNamedText(e, nameKey)
    ensures r.Ok? ==> r.value.kind == e.attrib["kind"] && r.value.refid.text == e.attrib[refidKey]
    ensures r.Ok? ==> NamedPath(e, nameKey, r.value.path)
    ensures "kind" !in e.attrib ==> r == Err(KeyError("kind"))
    ensures "kind" in e.attrib && refidKey !in e.attrib ==> r == Err(KeyError(refidKey))
    ensures "kind" in e.attrib && refidKey in e.attrib && NoneWithTag(e.children, nameKey) ==> r == Err(MissingElement(nameKey))
    ensures "kind" in e.attrib && refidKey in e.attrib
            ==> forall i :: FirstWithTag(e.children, nameKey, i) && e.children[i].text.None? ==> r == Err(MissingText(nameKey))
  {
    var kind :- Attr(e, "kind");
    var refid :- Attr(e, refidKey);
    FirstIsUnique(e.children, nameKey);
    match Find(e, nameKey)
    case None => Err(MissingElement(nameKey))
    case Some(n) =>
      match n.text
      case None => Err(MissingText(nameKey))
      case Some(t) => Ok(Common(kind, RefId(refid), PathOf(t)))
  }

  lemma FirstIsUnique(cs: seq<Element>, tag: string)
    ensures forall i, j :: FirstWithTag(cs, tag, i) && FirstWithTag(cs, tag, j) ==> i == j
  {
  }

  /** One function parameter: its type text and its declared name. */
  datatype Param = Param(paramType: Option<string>, declname: string)

  /** The variant-specific part of a definition. */
  datatype Variant =
    | NamespaceDef
    | ClassDef
    | FunctionDef(name: string, returnType: Option<string>, params: seq<Param>)
    | CompoundDef

  /** The kind a variant stands for. */
  function VariantKind(v: Variant): Kind {
    match v
    case NamespaceDef => NamespaceKind
    case ClassDef => ClassKind
    case FunctionDef(_, _, _) => FunctionKind
    case CompoundDef => CompoundKind
  }

  /** A fully read definition, together with the element it was read from. */
  datatype Definition = Definition(
    node: Element,
    kind: string,
    refid: RefId,
    path: Path,
    location: Location,
    language: Option<string>,
    variant: Variant)
  {
    /** The kind this definition's variant stands for. */
    function Category(): Kind {
      VariantKind(variant)
    }
  }

  /**
   A type: the text of the first nested `ref` when there is one (the type
   names a documented symbol), otherwise the type element's own text. A
   missing type element aborts.
   */
  function BuildType(e: Element, key: string): (r: Result<Option<string>, Error>)
    ensures r.Ok? <==> !NoneWithTag(e.children, key)
    ensures r.Err? ==> r.error == MissingElement(key)
    ensures forall i, j :: FirstWithTag(e.children, key, i) && FirstWithTag(e.children[i].children, "ref", j)
                           ==> r == Ok(e.children[i].children[j].text)
    ensures forall i :: FirstWithTag(e.children, key, i) && NoneWithTag(e.children[i].children, "ref")
                        ==> r == Ok(e.children[i].text)
  {
    FirstIsUnique(e.children, key);
    match Find(e, key)
    case None => Err(MissingElement(key))
    case Some(t) =>
      FirstIsUnique(t.children, "ref");
      match Find(t, "ref")
      case None => Ok(t.text)
      case Some(rf) => Ok(rf.text)
  }

  /** A name: the child's text, `""` when it has none, and `"_"` when the child is missing. */
  function BuildName(e: Element, key: string): (r: string)
    ensures NoneWithTag(e.children, key) ==> r == "_"
    ensures forall i :: FirstWithTag(e.children, key, i) ==> r == e.children[i].text.GetOr("")
  {
    FindText(e, key, "_")
  }

  /** A `param` element: its type and its `declname`. */
  function BuildParam(p: Element): (r: Result<Param, Error>)
    ensures r.Ok? <==> !NoneWithTag(p.children, "type")
    ensures r.Ok? ==> Ok(r.value.paramType) == BuildType(p, "type")
    ensures r.Ok? ==> r.value.declname == BuildName(p, "declname")
    ensures r.Err? ==> r.error == MissingElement("type")
  {
    var t :- BuildType(p, "type");
    Ok(Param(t, BuildName(p, "declname")))
  }

  /** Every `param` child of `e` builds. */
  predicate ParamsBuild(e: Element) {
    forall i :: 0 <= i < |FindAll(e, "param")| ==> BuildParam(FindAll(e, "param")[i]).Ok?
  }

  /** The signature part of a function definition. */
  function BuildFunction(e: Element): (r: Result<Variant, Error>)
    ensures r.Ok? <==> !NoneWithTag(e.children, "type") && ParamsBuild(e)
    ensures r.Ok? ==> r.value.FunctionDef?
    ensures r.Err? ==> r.error == MissingElement("type")
  {
    var name := BuildName(e, "name");
    var returnType :- BuildType(e, "type");
    var params :- MapAll(BuildParam, FindAll(e, "param"));
    Ok(FunctionDef(name, returnType, params))
  }

  /**
   A built signature carries the function's name, its return type, and one
   parameter per `param` child, in order, each built from that child.
   */
  lemma FunctionSignature(e: Element)
    requires BuildFunction(e).Ok?
    ensures var f := BuildFunction(e).value;
            && f.name == BuildName(e, "name") && Ok(f.returnType) == BuildType(e, "type")
            && |f.params| == |FindAll(e, "param")|
            && forall i :: 0 <= i < |FindAll(e, "param")| ==> BuildParam(FindAll(e, "param")[i]) == Ok(f.params[i])
  {
    var params := MapAll(BuildParam, FindAll(e, "param"));
    assert BuildFunction(e).value.params == params.value;
  }

  /** The variant for kind `k`; only a function has anything further to read. */
  function BuildVariant(e: Element, k: Kind): (r: Result<Variant, Error>)
    ensures r.Ok? <==> (k == FunctionKind ==> BuildFunction(e).Ok?)
    ensures r.Ok? ==> VariantKind(r.value) == k
    ensures k == FunctionKind ==> r == BuildFunction(e)
  {
    match k
    case NamespaceKind => Ok(NamespaceDef)
    case ClassKind => Ok(ClassDef)
    case FunctionKind => BuildFunction(e)
    case CompoundKind => Ok(CompoundDef)
  }

  /** The child holding a definition's qualified name: functions use `definition`. */
  function NameKey(k: Kind): string {
    if k == FunctionKind then "definition" else "compoundname"
  }

  /** Everything `MakeDefinition` needs of an element to succeed. */
  predicate Definable(e: Element) {
    && "kind" in e.attrib
    && "id" in e.attrib
    && HasNamedText(e, NameKey(Classify(e.attrib["kind"])))
    && (Classify(e.attrib["kind"]) == FunctionKind ==> BuildFunction(e).Ok?)
  }

  /**
   The definition factory: reads the kind, picks the variant, and reads the
   common fields and (for a function) the signature.
   */
  function MakeDefinition(e: Element): (r: Result<Definition, Error>)
    ensures r.Ok? <==> Definable(e)
    ensures "kind" !in e.attrib ==> r == Err(KeyError("kind"))
    ensures "kind" in e.attrib && "id" !in e.attrib ==> r == Err(KeyError("id"))
    ensures r.Ok? ==> r.value.node == e && r.value.kind == e.attrib["kind"] && r.value.refid.text == e.attrib["id"]
    ensures r.Ok? ==> r.value.Category() == Classify(r.value.kind)
    ensures r.Ok? && r.value.Category() == FunctionKind ==> Ok(r.value.variant) == BuildFunction(e)
    ensures "kind" in e.attrib && ReadCommon(e, "id", NameKey(Classify(e.attrib["kind"]))).Err?
            ==> r == Err(ReadCommon(e, "id", NameKey(Classify(e.attrib["kind"]))).error)
    ensures "kind" in e.attrib && ReadCommon(e, "id", NameKey(Classify(e.attrib["kind"]))).Ok?
            && Classify(e.attrib["kind"]) == FunctionKind && BuildFunction(e).Err?
            ==> r == Err(BuildFunction(e).error)
  {
    var kind :- Attr(e, "kind");
    var k := Classify(kind);
    var common :- ReadCommon(e, "id", NameKey(k));
    var variant :- BuildVariant(e, k);
    var d := Definition(e, common.kind, common.refid, common.path, LocationOf(Find(e, "location")), Get(e, "language"), variant);
    assert d.Category() == k;
    Ok(d)
  }

  /**
   The path of a built definition is the path of the text of its name child:
   `definition` for a function, `compoundname` otherwise.
   */
  lemma DefinitionPath(e: Element)
    requires MakeDefinition(e).Ok?
    ensures NamedPath(e, NameKey(MakeDefinition(e).value.Category()), MakeDefinition(e).value.path)
  {
    var k := Classify(e.attrib["kind"]);
    var common := ReadCommon(e, "id", NameKey(k));
    assert MakeDefinition(e).value.path == common.value.path;
  }

  /** A built definition's language is its `language` attribute and its location is read from its `location` child. */
  lemma DefinitionOrigin(e: Element)
    requires MakeDefinition(e).Ok?
    ensures MakeDefinition(e).value.language == Get(e, "language")
    ensures MakeDefinition(e).value.location == LocationOf(Find(e, "location"))
  {
  }

  /** `es[i]` is the first element that is not definable, and building it raises `e`. */
  predicate FirstUndefinable(es: seq<Element>, i: int, e: Error) {
    && 0 <= i < |es|
    && (forall j :: 0 <= j < i ==> Definable(es[j]))
    && MakeDefinition(es[i]) == Err(e)
  }

  /** The definitions built from a list of elements, aborting on the first that fails. */
  function MakeDefinitions(es: seq<Element>): (r: Result<seq<Definition>, Error>)
    ensures r.Ok? <==> forall i :: 0 <= i < |es| ==> Definable(es[i])
    ensures r.Ok? ==> |r.value| == |es| && forall i :: 0 <= i < |es| ==> MakeDefinition(es[i]) == Ok(r.value[i])
    ensures r.Err? ==> exists i :: FirstUndefinable(es, i, r.error)
  {
    var r := MapAll(MakeDefinition, es);
    if r.Err? then
      var i :| 0 <= i < |es| && MakeDefinition(es[i]) == Err(r.error) && forall j :: 0 <= j < i ==> MakeDefinition(es[j]).Ok?;
      assert FirstUndefinable(es, i, r.error);
      r
    else r
  }

  /**
   The definitions of one satellite document: every `compounddef` in the
   tree, in document order. The document's root must carry a `version`.
   */
  function DefinitionsOfDocument(root: Element): (r: Result<seq<Definition>, Error>)
    ensures r.Ok? <==> "version" in root.attrib && forall x :: x in Iter(root, "compounddef") ==> Definable(x)
    ensures r.Ok? ==> |r.value| == |Iter(root, "compounddef")|
    ensures r.Ok? ==> forall i :: 0 <= i < |r.value| ==> r.value[i].node == Iter(root, "compounddef")[i]
    ensures r.Ok? ==> forall i :: 0 <= i < |r.value| ==> MakeDefinition(r.value[i].node) == Ok(r.value[i])
    ensures "version" !in root.attrib ==> r == Err(KeyError("version"))
    ensures "version" in root.attrib && r.Err? ==> exists i :: FirstUndefinable(Iter(root, "compounddef"), i, r.error)
  {
    var _ :- Attr(root, "version");
    MakeDefinitions(Iter(root, "compounddef"))
  }
}

=== FILE: model.dfy ===
/**
 The symbol model: the id -> definition table built from the root index and
 every satellite document it lists, with lookup by id and the namespace
 filter. Documents are given as a map from file name to parsed root element.

 Insertion overwrites: when two definitions carry the same id, the one
 inserted later is the one the table keeps.
 */
module Model {
  import opened Wrappers
  import opened Xml
  import opened Definitions
  import opened References

  /** The global table, keyed by each definition's id text. */
  type Table = map<string, Definition>

  /** Every entry is stored under its own id. */
  predicate Keyed(t: Table) {
    forall k :: k in t ==> t[k].refid.text == k
  }

  /** `d` is what the definition factory builds from its own element. */
  predicate Made(d: Definition) {
    MakeDefinition(d.node) == Ok(d)
  }

  /** Every entry is what the definition factory builds from its element. */
  predicate Built(t: Table) {
    forall k :: k in t ==> Made(t[k])
  }

  /** The ids of a list of definitions. */
  function Ids(defs: seq<Definition>): set<string> {
    set i | 0 <= i < |defs| :: defs[i].refid.text
  }

  /** The ids of a non-empty list: the first one's id and the ids of the rest. */
  lemma IdsCons(defs: seq<Definition>)
    requires |defs| > 0
    ensures Ids(defs) == {defs[0].refid.text} + Ids(defs[1..])
  {
    assert forall i :: 1 <= i < |defs| ==> defs[i] == defs[1..][i - 1];
    assert forall i :: 0 <= i < |defs[1..]| ==> defs[1..][i] == defs[i + 1];
  }

  /** `defs[i]` is the last definition in `defs` carrying its id. */
  predicate LastWithId(defs: seq<Definition>, i: int) {
    && 0 <= i < |defs|
    && forall j :: i < j < |defs| ==> defs[j].refid.text != defs[i].refid.text
  }

  /**
   Inserts `defs` in order, each under its own id. Every id ends up in the
   table, the last definition with a given id is the one stored, and ids not
   among `defs` keep their entries.
   */
  function Insert(t: Table, defs: seq<Definition>): (r: Table)
    ensures forall k :: k in r <==> k in t || k in Ids(defs)
    ensures forall k :: k in t && k !in Ids(defs) ==> r[k] == t[k]
    decreases |defs|
  {
    if |defs| == 0 then t
    else
      var d := defs[0];
      var t' := t[d.refid.text := d];
      var r := Insert(t', defs[1..]);
      IdsCons(defs);
      r
  }

  /** The last definition in `defs` with a given id is the one the table stores under it. */
  lemma {:induction false} InsertLastWins(t: Table, defs: seq<Definition>, i: int)
    requires LastWithId(defs, i)
    ensures defs[i].refid.text in Insert(t, defs) && Insert(t, defs)[defs[i].refid.text] == defs[i]
    decreases |defs|
  {
    var d := defs[0];
    var t' := t[d.refid.text := d];
    assert Insert(t, defs) == Insert(t', defs[1..]);
    if i == 0 {
      assert d.refid.text !in Ids(defs[1..]) by {
        forall j | 0 <= j < |defs[1..]| ensures defs[1..][j].refid.text != d.refid.text {
          assert defs[1..][j] == defs[j + 1];
        }
      }
    } else {
      assert LastWithId(defs[1..], i - 1) by {
        forall j | i - 1 < j < |defs[1..]| ensures defs[1..][j].refid.text != defs[1..][i - 1].refid.text {
          assert defs[1..][j] == defs[j + 1];
        }
      }
      InsertLastWins(t', defs[1..], i - 1);
    }
  }

  /** Every id among `defs` has a last definition carrying it. */
  lemma {:induction false} LastExists(defs: seq<Definition>, k: string)
    requires k in Ids(defs)
    ensures exists i :: LastWithId(defs, i) && defs[i].refid.text == k
    decreases |defs|
  {
    var n := |defs| - 1;
    if defs[n].refid.text == k {
      assert LastWithId(defs, n);
    } else {
      var front := defs[..n];
      assert k in Ids(front) by {
        var i :| 0 <= i < |defs| && defs[i].refid.text == k;
        assert front[i] == defs[i];
      }
      LastExists(front, k);
      var i :| LastWithId(front, i) && front[i].refid.text == k;
      assert LastWithId(defs, i);
    }
  }

  /** Inserting keeps every entry under its own id. */
  lemma InsertKeyed(t: Table, defs: seq<Definition>)
    ensures Keyed(t) ==> Keyed(Insert(t, defs))
  {
    var r := Insert(t, defs);
    if Keyed(t) {
      forall k | k in r ensures r[k].refid.text == k {
        if k in Ids(defs) {
          LastExists(defs, k);
          var i :| LastWithId(defs, i) && defs[i].refid.text == k;
          InsertLastWins(t, defs, i);
        }
      }
    }
  }

  /** Inserting factory-built definitions keeps the table factory-built. */
  lemma InsertBuilt(t: Table, defs: seq<Definition>)
    ensures Built(t) && (forall i :: 0 <= i < |defs| ==> Made(defs[i])) ==> Built(Insert(t, defs))
  {
    var r := Insert(t, defs);
    if Built(t) && (forall i :: 0 <= i < |defs| ==> Made(defs[i])) {
      forall k | k in r ensures Made(r[k]) {
        if k in Ids(defs) {
          LastExists(defs, k);
          var i :| LastWithId(defs, i) && defs[i].refid.text == k;
          InsertLastWins(t, defs, i);
        }
      }
    }
  }

  /** With duplicate ids, the later definition replaces the earlier one. */
  lemma LastWriterWins(t: Table, a: Definition, b: Definition)
    requires a.refid == b.refid
    ensures Insert(t, [a, b])[a.refid.text] == b
  {
    assert LastWithId([a, b], 1);
    InsertLastWins(t, [a, b], 1);
  }

  /** Two definitions with one id occupy a single entry: at most one key is added. */
  lemma DuplicatesShareEntry(t: Table, a: Definition, b: Definition)
    requires a.refid == b.refid
    ensures |Insert(t, [a, b]).Keys - t.Keys| <= 1
  {
    var added := Insert(t, [a, b]).Keys - t.Keys;
    assert Ids([a, b]) <= {a.refid.text} by {
      assert [a, b][0] == a && [a, b][1] == b;
    }
    assert added == {} || added == {a.refid.text};
  }

  /** `find_definition`: the stored entry, or a KeyError for an unknown id. */
  function FindDefinition(t: Table, id: string): (r: Result<Definition, Error>)
    ensures r.Ok? <==> id in t
    ensures r.Ok? ==> r.value == t[id]
    ensures r.Err? ==> r.error == KeyError(id)
  {
    if id in t then Ok(t[id]) else Err(KeyError(id))
  }

  /**
   After inserting `defs`, each of them can be found by its id, and what is
   found carries that id; the last one with a given id is what is found.
   */
  lemma FindAfterInsert(t: Table, defs: seq<Definition>, i: int)
    requires Keyed(t)
    requires 0 <= i < |defs|
    ensures FindDefinition(Insert(t, defs), defs[i].refid.text).Ok?
    ensures FindDefinition(Insert(t, defs), defs[i].refid.text).value.refid == defs[i].refid
    ensures LastWithId(defs, i) ==> FindDefinition(Insert(t, defs), defs[i].refid.text) == Ok(defs[i])
  {
    assert defs[i].refid.text in Ids(defs);
    InsertKeyed(t, defs);
    if LastWithId(defs, i) {
      InsertLastWins(t, defs, i);
    }
  }

  /** The stored definitions whose kind is `namespace`; their order is unspecified. */
  function Namespaces(t: Table): (r: set<Definition>)
    ensures forall k :: k in t && t[k].kind == "namespace" ==> t[k] in r
    ensures forall d :: d in r ==> d.kind == "namespace" && d in t.Values
  {
    set k | k in t && t[k].kind == "namespace" :: t[k]
  }

  /** Every namespace the filter yields can be looked up by its own id. */
  lemma NamespacesResolve(t: Table, d: Definition)
    requires Keyed(t)
    requires d in Namespaces(t)
    ensures FindDefinition(t, d.refid.text) == Ok(d)
  {
  }

  /**
   A factory-built definition whose kind is `namespace` is a namespace in the
   variant sense too, so in a factory-built table the filter yields only
   namespace variants.
   */
  lemma NamespaceKindIsVariant(d: Definition)
    requires Made(d) && d.kind == "namespace"
    ensures d.variant.NamespaceDef?
  {
  }

  /**
   Reading a reference's satellite document: the definitions it holds, in
   document order, or the error that stopped the read.
   */
  type Reader = Reference -> Result<seq<Definition>, Error>

  /** Every list the reader yields is factory-built. */
  ghost predicate ReadsBuilt(read: Reader) {
    forall ref :: read(ref).Ok? ==> forall i :: 0 <= i < |read(ref).value| ==> Made(read(ref).value[i])
  }

  /**
   The reader over a set of parsed documents: the document named by the
   reference's `.xml` path, or an IOError when there is no such document.
   */
  function ReadDocument(docs: map<string, Element>, ref: Reference): (r: Result<seq<Definition>, Error>)
    ensures ref.xmlPath !in docs ==> r == Err(IOError(ref.xmlPath))
    ensures ref.xmlPath in docs ==> r == DefinitionsOfDocument(docs[ref.xmlPath])
    ensures ref.xmlPath in docs ==> (r.Ok? <==> "version" in docs[ref.xmlPath].attrib
                                                && forall x :: x in Iter(docs[ref.xmlPath], "compounddef") ==> Definable(x))
    ensures r.Ok? ==> forall i :: 0 <= i < |r.value| ==> Made(r.value[i])
  {
    if ref.xmlPath !in docs then Err(IOError(ref.xmlPath))
    else DefinitionsOfDocument(docs[ref.xmlPath])
  }

  /** `ReadDocument` as a reader value. */
  function Reading(docs: map<string, Element>): Reader {
    ref => ReadDocument(docs, ref)
  }

  /** The document reader yields factory-built definitions. */
  lemma ReadingBuilt(docs: map<string, Element>)
    ensures ReadsBuilt(Reading(docs))
  {
    forall ref | Reading(docs)(ref).Ok?
      ensures forall i :: 0 <= i < |Reading(docs)(ref).value| ==> Made(Reading(docs)(ref).value[i])
    {
      assert Reading(docs)(ref) == ReadDocument(docs, ref);
    }
  }

  /**
   `add_definition_index`: reads the reference's satellite document and
   inserts each of its definitions under its own id, overwriting. A failed
   read leaves the table as it was and is reported.
   */
  function AddDefinitionIndex(t: Table, ref: Reference, read: Reader): (r: Result<Table, Error>)
    ensures r.Ok? <==> read(ref).Ok?
    ensures r.Err? ==> r.error == read(ref).error
    ensures r.Ok? ==> forall k :: k in r.value <==> k in t || k in Ids(read(ref).value)
    ensures r.Ok? ==> forall k :: k in t && k !in Ids(read(ref).value) ==> r.value[k] == t[k]
    ensures r.Ok? ==> r.value == Insert(t, read(ref).value)
  {
    var defs :- read(ref);
    Ok(Insert(t, defs))
  }

  /** Adding a document keeps every entry keyed by its id and factory-built. */
  lemma AddDefinitionIndexSound(t: Table, ref: Reference, read: Reader)
    requires Keyed(t) && Built(t) && ReadsBuilt(read)
    requires AddDefinitionIndex(t, ref, read).Ok?
    ensures Keyed(AddDefinitionIndex(t, ref, read).value) && Built(AddDefinitionIndex(t, ref, read).value)
  {
    var defs := read(ref).value;
    InsertKeyed(t, defs);
    InsertBuilt(t, defs);
  }

  /**
   Adds the satellite documents of `refs[from..]` in order, aborting with
   the first failed read's error.
   */
  function AddAll(t: Table, refs: seq<Reference>, from: nat, read: Reader): (r: Result<Table, Error>)
    requires from <= |refs|
    ensures r.Ok? <==> forall i :: from <= i < |refs| ==> read(refs[i]).Ok?
    ensures r.Ok? ==> forall k :: k in r.value <==> k in t || exists i :: from <= i < |refs| && read(refs[i]).Ok? && k in Ids(read(refs[i]).value)
    decreases |refs| - from
  {
    if from == |refs| then Ok(t)
    else
      var t' :- AddDefinitionIndex(t, refs[from], read);
      AddAll(t', refs, from + 1, read)
  }

  /**
   A load fails with the error of the first reference whose document cannot
   be read, whatever follows it.
   */
  lemma {:induction false} AddAllFails(t: Table, refs: seq<Reference>, from: nat, read: Reader, i: int)
    requires from <= i < |refs| && read(refs[i]).Err?
    requires forall j :: from <= j < i ==> read(refs[j]).Ok?
    ensures AddAll(t, refs, from, read) == Err(read(refs[i]).error)
    decreases i - from
  {
    if from < i {
      var t' := AddDefinitionIndex(t, refs[from], read).value;
      assert AddAll(t, refs, from, read) == AddAll(t', refs, from + 1, read);
      AddAllFails(t', refs, from + 1, read, i);
    } else {
      assert AddDefinitionIndex(t, refs[from], read) == Err(read(refs[i]).error);
    }
  }

  /** A key that no document still to be loaded carries keeps the entry it had. */
  lemma {:induction false} AddAllKeeps(t: Table, refs: seq<Reference>, from: nat, read: Reader, k: string)
    requires from <= |refs| && AddAll(t, refs, from, read).Ok?
    requires k in t
    requires forall i :: from <= i < |refs| ==> k !in Ids(read(refs[i]).value)
    ensures k in AddAll(t, refs, from, read).value && AddAll(t, refs, from, read).value[k] == t[k]
    decreases |refs| - from
  {
    if from < |refs| {
      var t' := AddDefinitionIndex(t, refs[from], read).value;
      AddAllKeeps(t', refs, from + 1, read, k);
    }
  }

  /**
   Across documents the last writer wins as well: an id carried by document
   `i` and by no later one ends up mapped to the last definition of document
   `i` that carries it.
   */
  lemma {:induction false} AddAllLastWins(t: Table, refs: seq<Reference>, from: nat, read: Reader, i: int, m: int)
    requires from <= i < |refs| && AddAll(t, refs, from, read).Ok?
    requires LastWithId(read(refs[i]).value, m)
    requires forall j :: i < j < |refs| ==> read(refs[i]).value[m].refid.text !in Ids(read(refs[j]).value)
    ensures var d := read(refs[i]).value[m];
            d.refid.text in AddAll(t, refs, from, read).value && AddAll(t, refs, from, read).value[d.refid.text] == d
    decreases i - from
  {
    if from < i {
      var t' := AddDefinitionIndex(t, refs[from], read).value;
      AddAllLastWins(t', refs, from + 1, read, i, m);
    } else {
      LoadedHereWins(t, refs, i, read, m);
    }
  }

  /** The document loaded first writes its last definition for an id no later document carries. */
  lemma LoadedHereWins(t: Table, refs: seq<Reference>, i: nat, read: Reader, m: int)
    requires i < |refs| && AddAll(t, refs, i, read).Ok?
    requires LastWithId(read(refs[i]).value, m)
    requires forall j :: i < j < |refs| ==> read(refs[i]).value[m].refid.text !in Ids(read(refs[j]).value)
    ensures var d := read(refs[i]).value[m];
            d.refid.text in AddAll(t, refs, i, read).value && AddAll(t, refs, i, read).value[d.refid.text] == d
  {
    var defs := read(refs[i]).value;
    var t' := Insert(t, defs);
    assert AddAll(t, refs, i, read) == AddAll(t', refs, i + 1, read);
    InsertLastWins(t, defs, m);
    AddAllKeeps(t', refs, i + 1, read, defs[m].refid.text);
  }

  /** Loading documents keeps every entry keyed by its id and factory-built. */
  lemma {:induction false} AddAllSound(t: Table, refs: seq<Reference>, from: nat, read: Reader)
    requires from <= |refs|
    requires Keyed(t) && Built(t) && ReadsBuilt(read)
    requires AddAll(t, refs, from, read).Ok?
    ensures Keyed(AddAll(t, refs, from, read).value) && Built(AddAll(t, refs, from, read).value)
    decreases |refs| - from
  {
    if from < |refs| {
      var t' := AddDefinitionIndex(t, refs[from], read).value;
      AddDefinitionIndexSound(t, refs[from], read);
      AddAllSound(t', refs, from + 1, read);
    }
  }

  /** After loading, the ids of every referenced document are keys of the table. */
  lemma {:induction false} AddAllCovers(t: Table, refs: seq<Reference>, from: nat, read: Reader, i: int)
    requires from <= i < |refs|
    requires AddAll(t, refs, from, read).Ok?
    ensures Ids(read(refs[i]).value) <= AddAll(t, refs, from, read).value.Keys
    decreases i - from
  {
    var t' := AddDefinitionIndex(t, refs[from], read).value;
    if from < i {
      AddAllCovers(t', refs, from + 1, read, i);
    } else {
      assert Ids(read(refs[i]).value) <= t'.Keys;
    }
  }

  /** Some listed document reads and carries the id `k`. */
  predicate LoadedId(docs: map<string, Element>, refs: seq<Reference>, k: string) {
    exists i :: 0 <= i < |refs| && ReadDocument(docs, refs[i]).Ok? && k in Ids(ReadDocument(docs, refs[i]).value)
  }

  /** The root index document's file name. */
  const IndexFile: string := "index.xml"

  /**
   Loads the satellite documents of `refs`, in order, into an empty table.
   It succeeds exactly when every document reads, and the table then holds
   exactly the ids those documents carry, each keyed and factory-built.
   */
  function LoadDocuments(docs: map<string, Element>, refs: seq<Reference>): (r: Result<Table, Error>)
    ensures r.Ok? <==> forall i :: 0 <= i < |refs| ==> ReadDocument(docs, refs[i]).Ok?
    ensures r.Ok? ==> Keyed(r.value) && Built(r.value)
    ensures r.Ok? ==> forall k :: k in r.value <==> LoadedId(docs, refs, k)
  {
    var r := AddAll(map[], refs, 0, Reading(docs));
    assert forall i :: 0 <= i < |refs| ==> Reading(docs)(refs[i]) == ReadDocument(docs, refs[i]);
    if r.Ok? then
      ReadingBuilt(docs);
      AddAllSound(map[], refs, 0, Reading(docs));
      r
    else r
  }

  /**
   After loading, an id carried by document `i` and by no later document is
   mapped to the last definition of document `i` that carries it.
   */
  lemma LoadedLastWins(docs: map<string, Element>, refs: seq<Reference>, i: int, m: int)
    requires LoadDocuments(docs, refs).Ok? && 0 <= i < |refs|
    requires LastWithId(ReadDocument(docs, refs[i]).value, m)
    requires forall j :: i < j < |refs| ==> ReadDocument(docs, refs[i]).value[m].refid.text !in Ids(ReadDocument(docs, refs[j]).value)
    ensures var d := ReadDocument(docs, refs[i]).value[m];
            FindDefinition(LoadDocuments(docs, refs).value, d.refid.text) == Ok(d)
  {
    assert forall j :: 0 <= j < |refs| ==> Reading(docs)(refs[j]) == ReadDocument(docs, refs[j]);
    AddAllLastWins(map[], refs, 0, Reading(docs), i, m);
  }

  /**
   Builds the model: reads the root index, then every satellite document it
   references, in index order.
   */
  function LoadModel(docs: map<string, Element>): (r: Result<Table, Error>)
    ensures IndexFile !in docs ==> r == Err(IOError(IndexFile))
    ensures IndexFile in docs && ReferencesOfIndex(docs[IndexFile]).Err?
            ==> r == Err(ReferencesOfIndex(docs[IndexFile]).error)
    ensures IndexFile in docs && ReferencesOfIndex(docs[IndexFile]).Ok?
            ==> (r.Ok? <==> forall i :: 0 <= i < |ReferencesOfIndex(docs[IndexFile]).value|
                                        ==> ReadDocument(docs, ReferencesOfIndex(docs[IndexFile]).value[i]).Ok?)
    ensures r.Ok? ==> IndexFile in docs && ReferencesOfIndex(docs[IndexFile]).Ok?
    ensures r.Ok? ==> Keyed(r.value) && Built(r.value)
    ensures r.Ok? ==> forall k :: k in r.value <==> LoadedId(docs, ReferencesOfIndex(docs[IndexFile]).value, k)
    ensures r.Ok? ==> r == LoadDocuments(docs, ReferencesOfIndex(docs[IndexFile]).value)
  {
    if IndexFile !in docs then Err(IOError(IndexFile))
    else
      var refs :- ReferencesOfIndex(docs[IndexFile]);
      LoadDocuments(docs, refs)
  }

  /**
   The full build keeps the last writer across the index's documents: an id
   carried by the `i`-th listed document and by no later one is found as that
   document's last definition with the id.
   */
  lemma ModelLastWins(docs: map<string, Element>, i: int, m: int)
    requires LoadModel(docs).Ok?
    requires 0 <= i < |ReferencesOfIndex(docs[IndexFile]).value|
    requires var refs := ReferencesOfIndex(docs[IndexFile]).value;
             && LastWithId(ReadDocument(docs, refs[i]).value, m)
             && forall j :: i < j < |refs| ==> ReadDocument(docs, refs[i]).value[m].refid.text !in Ids(ReadDocument(docs, refs[j]).value)
    ensures var d := ReadDocument(docs, ReferencesOfIndex(docs[IndexFile]).value[i]).value[m];
            FindDefinition(LoadModel(docs).value, d.refid.text) == Ok(d)
  {
    LoadedLastWins(docs, ReferencesOfIndex(docs[IndexFile]).value, i, m);
  }

  /**
   After a successful load, every definition of every referenced document
   can be found by its id, and what is found carries that id.
   */
  lemma LoadedDefinitionsResolve(docs: map<string, Element>, i: int, j: int)
    requires LoadModel(docs).Ok?
    requires 0 <= i < |ReferencesOfIndex(docs[IndexFile]).value|
    requires 0 <= j < |ReadDocument(docs, ReferencesOfIndex(docs[IndexFile]).value[i]).value|
    ensures var d := ReadDocument(docs, ReferencesOfIndex(docs[IndexFile]).value[i]).value[j];
            && FindDefinition(LoadModel(docs).value, d.refid.text).Ok?
            && FindDefinition(LoadModel(docs).value, d.refid.text).value.refid == d.refid
  {
    var refs := ReferencesOfIndex(docs[IndexFile]).value;
    var defs := ReadDocument(docs, refs[i]).value;
    assert defs[j].refid.text in Ids(defs);
    assert LoadedId(docs, refs, defs[j].refid.text);
  }
}

=== FILE: paths.dfy ===
/**
 Qualified names. A Doxygen name such as `Foo::Bar::baz` is prefixed with
 `/` and split on either `::` or `/`; the path keeps the list of segments,
 the slash-joined text and the leaf (last) segment.

 The split scans left to right and, at each position, tries `::` before `/`,
 which is how a regular expression with the alternation `::|/` splits. A
 run of three colons therefore splits after the first two.
 */
module Paths {

  /** `x` contains no `/` and no two consecutive colons. */
  ghost predicate NoSeparator(x: string) {
    && (forall j :: 0 <= j < |x| ==> x[j] != '/')
    && (forall j :: 0 <= j < |x| - 1 ==> !(x[j] == ':' && x[j + 1] == ':'))
  }

  /** The string starts with the two-character separator `::`. */
  predicate StartsWithColons(s: string) {
    |s| >= 2 && s[0] == ':' && s[1] == ':'
  }

  /**
   Splits `s` at every separator; `cur` is the part of the current segment
   already scanned.
   */
  function SplitFrom(s: string, cur: string): (r: seq<string>)
    ensures |r| >= 1
    decreases |s|
  {
    if |s| == 0 then [cur]
    else if StartsWithColons(s) then [cur] + SplitFrom(s[2..], "")
    else if s[0] == '/' then [cur] + SplitFrom(s[1..], "")
    else SplitFrom(s[1..], cur + [s[0]])
  }

  /**
   The segments of `s`, split on `::` or `/`: at least one, none containing
   a separator, and joined back with `/` they give `s` with `::` read as `/`.
   */
  function Split(s: string): (r: seq<string>)
    ensures |r| >= 1
    ensures forall i :: 0 <= i < |r| ==> NoSeparator(r[i])
    ensures JoinSlash(r) == Normalize(s)
  {
    SplitNoSeparator(s, "");
    JoinSplit(s, "");
    SplitFrom(s, "")
  }

  /** `s` with every `::` separator (in the scan order of `Split`) written as `/`. */
  function Normalize(s: string): string
    decreases |s|
  {
    if |s| == 0 then ""
    else if StartsWithColons(s) then "/" + Normalize(s[2..])
    else [s[0]] + Normalize(s[1..])
  }

  /** `"/".join(segs)`. */
  function JoinSlash(segs: seq<string>): string {
    if |segs| == 0 then ""
    else if |segs| == 1 then segs[0]
    else segs[0] + "/" + JoinSlash(segs[1..])
  }

  /** A qualified name: its segments, its slash-joined text and its leaf name. */
  datatype Path = Path(names: seq<string>, text: string, name: string)

  /**
   The path of a Doxygen name. Because `/` is prepended before splitting,
   the first segment is always the empty name and there is always a leaf
   after it; the text is `/` followed by the name with `::` read as `/`.
   */
  function PathOf(pathstr: string): (p: Path)
    ensures p.names == [""] + Split(pathstr)
    ensures p.text == JoinSlash(p.names)
    ensures p.name == p.names[|p.names| - 1]
    ensures p.text == "/" + Normalize(pathstr)
    ensures forall i :: 0 <= i < |p.names| ==> NoSeparator(p.names[i])
  {
    var names := Split("/" + pathstr);
    SplitLeadingSlash(pathstr);
    assert JoinSlash(names) == "/" + JoinSlash(Split(pathstr));
    Path(names, JoinSlash(names), names[|names| - 1])
  }

  /** Joining the split segments with `/` gives the normalised string. */
  lemma {:induction false} JoinSplit(s: string, cur: string)
    ensures JoinSlash(SplitFrom(s, cur)) == cur + Normalize(s)
    decreases |s|
  {
    if |s| == 0 {
    } else if StartsWithColons(s) {
      JoinSplit(s[2..], "");
    } else if s[0] == '/' {
      JoinSplit(s[1..], "");
    } else {
      JoinSplit(s[1..], cur + [s[0]]);
    }
  }

  /** No segment produced by the split contains a separator. */
  lemma {:induction false} SplitNoSeparator(s: string, cur: string)
    requires NoSeparator(cur)
    requires |cur| > 0 && cur[|cur| - 1] == ':' ==> !(|s| > 0 && s[0] == ':')
    ensures forall i :: 0 <= i < |SplitFrom(s, cur)| ==> NoSeparator(SplitFrom(s, cur)[i])
    decreases |s|
  {
    if |s| == 0 {
    } else if StartsWithColons(s) {
      SplitNoSeparator(s[2..], "");
    } else if s[0] == '/' {
      SplitNoSeparator(s[1..], "");
    } else {
      SplitNoSeparator(s[1..], cur + [s[0]]);
    }
  }

  /** Scanning a separator-free run appends it to the current segment. */
  lemma {:induction false} ScanSegment(x: string, tail: string, cur: string)
    requires NoSeparator(cur + x)
    requires tail == [] || tail[0] == '/'
    ensures SplitFrom(x + tail, cur) == SplitFrom(tail, cur + x)
    decreases |x|
  {
    if |x| > 0 {
      var s := x + tail;
      assert s[0] == x[0] && (cur + x)[|cur|] == x[0];
      assert s[0] != '/';
      if |x| > 1 {
        assert s[1] == x[1] && (cur + x)[|cur| + 1] == x[1];
      }
      assert !StartsWithColons(s);
      assert s[1..] == x[1..] + tail;
      assert (cur + [x[0]]) + x[1..] == cur + x;
      ScanSegment(x[1..], tail, cur + [x[0]]);
    } else {
      assert x + tail == tail && cur + x == cur;
    }
  }

  /** Splitting undoes joining, for segments without separators. */
  lemma {:induction false} SplitJoin(segs: seq<string>)
    requires |segs| >= 1
    requires forall i :: 0 <= i < |segs| ==> NoSeparator(segs[i])
    ensures Split(JoinSlash(segs)) == segs
    decreases |segs|
  {
    assert "" + segs[0] == segs[0];
    if |segs| == 1 {
      ScanSegment(segs[0], [], "");
      assert segs[0] + [] == segs[0];
    } else {
      var tail := "/" + JoinSlash(segs[1..]);
      assert JoinSlash(segs) == segs[0] + tail;
      ScanSegment(segs[0], tail, "");
      assert tail[1..] == JoinSlash(segs[1..]);
      SplitJoin(segs[1..]);
      assert segs == [segs[0]] + segs[1..];
    }
  }

  /** A leading `/` contributes an empty first segment and nothing else. */
  lemma SplitLeadingSlash(x: string)
    ensures Split("/" + x) == [""] + Split(x)
  {
    assert ("/" + x)[1..] == x;
  }

  /** The path of a slash-joined list of plain names has exactly those names. */
  lemma PathOfJoin(segs: seq<string>)
    requires |segs| >= 1
    requires forall i :: 0 <= i < |segs| ==> NoSeparator(segs[i])
    ensures PathOf(JoinSlash(segs)).names == [""] + segs
    ensures PathOf(JoinSlash(segs)).name == segs[|segs| - 1]
  {
    SplitJoin(segs);
    PathOfSplit(JoinSlash(segs), segs);
  }

  /** A name that splits into `segs` has the empty name and then `segs` as names, and the last as leaf. */
  lemma PathOfSplit(s: string, segs: seq<string>)
    requires Split(s) == segs
    ensures PathOf(s).names == [""] + segs
    ensures PathOf(s).name == segs[|segs| - 1]
  {
    var both := [""] + segs;
    assert both[|both| - 1] == segs[|segs| - 1];
  }

  /**
   `::` and `/` are interchangeable: a name and its normalised form (every
   `::` written as `/`) give the same path.
   */
  lemma SeparatorsInterchangeable(s: string)
    ensures PathOf(Normalize(s)) == PathOf(s)
  {
    SplitJoin(Split(s));
    SameSplitSamePath(Normalize(s), s);
  }

  /** Two names that split alike have the same path. */
  lemma SameSplitSamePath(a: string, b: string)
    requires Split(a) == Split(b)
    ensures PathOf(a) == PathOf(b)
  {
  }

  /** A colon-free prefix passes through `Normalize` unchanged. */
  lemma {:induction false} NormalizeColonFree(x: string, t: string)
    requires forall i :: 0 <= i < |x| ==> x[i] != ':'
    ensures Normalize(x + t) == x + Normalize(t)
    decreases |x|
  {
    if |x| > 0 {
      assert (x + t)[1..] == x[1..] + t;
      NormalizeColonFree(x[1..], t);
      assert x == [x[0]] + x[1..];
    } else {
      assert x + t == t;
    }
  }

  /** `"::".join(segs)`. */
  function JoinColons(segs: seq<string>): string {
    if |segs| == 0 then ""
    else if |segs| == 1 then segs[0]
    else segs[0] + "::" + JoinColons(segs[1..])
  }

  /** `x` contains neither a colon nor a slash. */
  ghost predicate Plain(x: string) {
    forall j :: 0 <= j < |x| ==> x[j] != ':' && x[j] != '/'
  }

  /** Normalising a `::`-joined list of plain names gives the `/`-joined list. */
  lemma {:induction false} NormalizeJoinColons(segs: seq<string>)
    requires forall i :: 0 <= i < |segs| ==> Plain(segs[i])
    ensures Normalize(JoinColons(segs)) == JoinSlash(segs)
    decreases |segs|
  {
    if |segs| == 1 {
      NormalizeColonFree(segs[0], "");
      assert segs[0] + "" == segs[0];
    } else if |segs| > 1 {
      var rest := JoinColons(segs[1..]);
      assert JoinColons(segs) == segs[0] + ("::" + rest);
      NormalizeColonFree(segs[0], "::" + rest);
      assert StartsWithColons("::" + rest) && ("::" + rest)[2..] == rest;
      NormalizeJoinColons(segs[1..]);
    }
  }

  /**
   A `::`-separated name and the same names separated by `/` give the same
   path, whose segments are exactly those names after the leading empty one.
   */
  lemma ColonsAndSlashesAgree(segs: seq<string>)
    requires |segs| >= 1
    requires forall i :: 0 <= i < |segs| ==> Plain(segs[i])
    ensures PathOf(JoinColons(segs)) == PathOf(JoinSlash(segs))
    ensures PathOf(JoinColons(segs)).names == [""] + segs
    ensures PathOf(JoinColons(segs)).text == "/" + JoinSlash(segs)
    ensures PathOf(JoinColons(segs)).name == segs[|segs| - 1]
  {
    NormalizeJoinColons(segs);
    PathOfJoin(segs);
    SamePathAsNormalized(JoinColons(segs), JoinSlash(segs), segs);
  }

  /** A name has the same path as its normalised form, whose names are known. */
  lemma SamePathAsNormalized(c: string, s: string, segs: seq<string>)
    requires |segs| >= 1 && Normalize(c) == s
    requires PathOf(s).names == [""] + segs && PathOf(s).name == segs[|segs| - 1]
    ensures PathOf(c) == PathOf(s)
    ensures PathOf(c).names == [""] + segs
    ensures PathOf(c).text == "/" + s
    ensures PathOf(c).name == segs[|segs| - 1]
  {
    SeparatorsInterchangeable(c);
  }

  /** Three names joined with `::`. */
  lemma JoinColonsThree(a: string, b: string, c: string)
    ensures JoinColons([a, b, c]) == a + "::" + (b + "::" + c)
  {
    assert [b, c][1..] == [c];
    assert JoinColons([b, c]) == b + "::" + c;
    assert [a, b, c][1..] == [b, c];
  }

  /** Three names joined with `/`. */
  lemma JoinSlashThree(a: string, b: string, c: string)
    ensures JoinSlash([a, b, c]) == a + "/" + (b + "/" + c)
  {
    assert [b, c][1..] == [c];
    assert JoinSlash([b, c]) == b + "/" + c;
    assert [a, b, c][1..] == [b, c];
  }

  /** The spelled-out strings of an example. */
  lemma FooBarBazLiterals()
    ensures "Foo" + "::" + ("Bar" + "::" + "baz") == "Foo::Bar::baz"
    ensures "Foo" + "/" + ("Bar" + "/" + "baz") == "Foo/Bar/baz"
    ensures "/" + "Foo/Bar/baz" == "/Foo/Bar/baz"
    ensures Plain("Foo") && Plain("Bar") && Plain("baz")
  {
  }

  /**
   An example: `Foo::Bar::baz` and `Foo/Bar/baz` both give the text
   `/Foo/Bar/baz`, the leaf `baz` and the names `"", Foo, Bar, baz`.
   */
  lemma FooBarBaz()
    ensures PathOf("Foo::Bar::baz").text == "/Foo/Bar/baz"
    ensures PathOf("Foo::Bar::baz").name == "baz"
    ensures PathOf("Foo::Bar::baz").names == ["", "Foo", "Bar", "baz"]
    ensures PathOf("Foo/Bar/baz") == PathOf("Foo::Bar::baz")
  {
    var segs := ["Foo", "Bar", "baz"];
    FooBarBazLiterals();
    JoinColonsThree("Foo", "Bar", "baz");
    JoinSlashThree("Foo", "Bar", "baz");
    assert forall i :: 0 <= i < |segs| ==> Plain(segs[i]);
    ColonsAndSlashesAgree(segs);
  }
}

=== FILE: references.dfy ===
/**
 References: the rows of the root index document (`index.xml`). Each
 `compound` element names an entity by id, kind and qualified name, and
 points at the satellite document `<refid>.xml` that holds its definition.
 */
module References {
  import opened Wrappers
  import opened Xml
  import opened Paths
  import opened Definitions

  /** One row of the root index. */
  datatype Reference = Reference(
    node: Element,
    kind: string,
    refid: RefId,
    path: Path,
    xmlPath: string,
    category: Kind)

  /** The suffix every satellite document name carries. */
  const XmlSuffix: string := ".xml"

  /**
   Reads one `compound` element: the common fields keyed by `refid` and
   `name`, the variant chosen by the same dispatch as definitions, and the
   satellite document name.
   */
  function MakeReference(e: Element): (r: Result<Reference, Error>)
    ensures r.Ok? <==> "kind" in e.attrib && "refid" in e.attrib && HasNamedText(e, "name")
    ensures "kind" !in e.attrib ==> r == Err(KeyError("kind"))
    ensures "kind" in e.attrib && "refid" !in e.attrib ==> r == Err(KeyError("refid"))
    ensures r.Ok? ==> r.value.node == e && r.value.kind == e.attrib["kind"] && r.value.refid.text == e.attrib["refid"]
    ensures r.Ok? ==> r.value.category == Classify(r.value.kind)
    ensures r.Ok? ==> r.value.xmlPath == e.attrib["refid"] + ".xml"
    ensures r.Ok? ==> NamedPath(e, "name", r.value.path)
    ensures r.Err? ==> r == Err(ReadCommon(e, "refid", "name").error)
  {
    var kind :- Attr(e, "kind");
    var common :- ReadCommon(e, "refid", "name");
    Ok(Reference(e, common.kind, common.refid, common.path, common.refid.text + XmlSuffix, Classify(kind)))
  }

  /** The id a satellite document name stands for: the name without `.xml`. */
  function RefIdOfXmlPath(xmlPath: string): (r: Option<string>)
    ensures r.Some? <==> |xmlPath| >= |XmlSuffix| && xmlPath[|xmlPath| - |XmlSuffix|..] == XmlSuffix
    ensures r.Some? ==> r.value + XmlSuffix == xmlPath
  {
    if |xmlPath| >= |XmlSuffix| && xmlPath[|xmlPath| - |XmlSuffix|..] == XmlSuffix then
      Some(xmlPath[..|xmlPath| - |XmlSuffix|])
    else None
  }

  /** A reference's satellite document name gives back exactly its id. */
  lemma XmlPathRoundTrip(e: Element)
    requires MakeReference(e).Ok?
    ensures RefIdOfXmlPath(MakeReference(e).value.xmlPath) == Some(MakeReference(e).value.refid.text)
  {
    var r := MakeReference(e).value;
    assert r.xmlPath[|r.xmlPath| - |XmlSuffix|..] == XmlSuffix;
    assert r.xmlPath[..|r.xmlPath| - |XmlSuffix|] == r.refid.text;
  }

  /** Two references share a satellite document exactly when they share an id. */
  lemma XmlPathInjective(e1: Element, e2: Element)
    requires MakeReference(e1).Ok? && MakeReference(e2).Ok?
    ensures MakeReference(e1).value.xmlPath == MakeReference(e2).value.xmlPath
            <==> MakeReference(e1).value.refid == MakeReference(e2).value.refid
  {
    XmlPathRoundTrip(e1);
    XmlPathRoundTrip(e2);
  }

  /**
   References and definitions dispatch alike: an index row and a definition
   with the same kind attribute land in the same variant.
   */
  lemma DispatchAgrees(row: Element, def: Element)
    requires "kind" in row.attrib && "kind" in def.attrib && row.attrib["kind"] == def.attrib["kind"]
    ensures MakeReference(row).Ok? && MakeDefinition(def).Ok?
            ==> MakeReference(row).value.category == MakeDefinition(def).value.Category()
  {
  }

  /** `rows[i]` is the first row that does not read, and reading it raises `e`. */
  predicate FirstUnreadable(rows: seq<Element>, i: int, e: Error) {
    && 0 <= i < |rows|
    && (forall j :: 0 <= j < i ==> MakeReference(rows[j]).Ok?)
    && MakeReference(rows[i]) == Err(e)
  }

  /** The references read from a list of rows, aborting on the first that fails. */
  function MakeReferences(rows: seq<Element>): (r: Result<seq<Reference>, Error>)
    ensures r.Ok? <==> forall i :: 0 <= i < |rows| ==> MakeReference(rows[i]).Ok?
    ensures r.Ok? ==> |r.value| == |rows| && forall i :: 0 <= i < |rows| ==> Ok(r.value[i]) == MakeReference(rows[i])
    ensures r.Err? ==> exists i :: FirstUnreadable(rows, i, r.error)
  {
    var r := MapAll(MakeReference, rows);
    if r.Err? then
      var i :| 0 <= i < |rows| && MakeReference(rows[i]) == Err(r.error) && forall j :: 0 <= j < i ==> MakeReference(rows[j]).Ok?;
      assert FirstUnreadable(rows, i, r.error);
      r
    else r
  }

  /**
   The rows of the root index: every `compound` element, in document
   order. The root must carry a `version` attribute.
   */
  function ReferencesOfIndex(root: Element): (r: Result<seq<Reference>, Error>)
    ensures r.Ok? <==> "version" in root.attrib
                       && forall i :: 0 <= i < |Iter(root, "compound")| ==> MakeReference(Iter(root, "compound")[i]).Ok?
    ensures r.Ok? ==> |r.value| == |Iter(root, "compound")|
    ensures r.Ok? ==> forall i :: 0 <= i < |r.value| ==> Ok(r.value[i]) == MakeReference(Iter(root, "compound")[i])
    ensures "version" !in root.attrib ==> r == Err(KeyError("version"))
    ensures "version" in root.attrib && r.Err? ==> exists i :: FirstUnreadable(Iter(root, "compound"), i, r.error)
  {
    var _ :- Attr(root, "version");
    var rows := Iter(root, "compound");
    var r := MakeReferences(rows);
    assert r.Ok? ==> forall i :: 0 <= i < |rows| ==> MakeReference(rows[i]).Ok?;
    assert (forall i :: 0 <= i < |rows| ==> MakeReference(rows[i]).Ok?) ==> r.Ok?;
    r
  }
}

=== FILE: relationships.dfy ===
/**
 Relationship lists of namespace and class definitions, computed on first
 access and kept in a per-definition cache afterwards.

 A namespace's child namespaces and child classes are its `innernamespace`
 and `innerclass` elements resolved through the table by their `refid`. A
 class's member functions are the `memberdef` elements of its public-function
 section, built in place by the definition factory.
 */
module Relationships {
  import opened Wrappers
  import opened Xml
  import opened Definitions
  import opened Model
  import opened Sections

  /** The per-definition cache of the three relationship lists; `None` until computed. */
  datatype Cache = Cache(
    namespaces: Option<seq<Definition>>,
    classes: Option<seq<Definition>>,
    functions: Option<seq<Definition>>)

  /** The node carries a `refid` that the table knows. */
  predicate Resolvable(n: Element, t: Table) {
    "refid" in n.attrib && n.attrib["refid"] in t
  }

  /** Resolves one reference node through the table. */
  function Resolve(t: Table, n: Element): (r: Result<Definition, Error>)
    ensures r.Ok? <==> Resolvable(n, t)
    ensures r.Ok? ==> r.value == t[n.attrib["refid"]]
    ensures "refid" !in n.attrib ==> r == Err(KeyError("refid"))
    ensures "refid" in n.attrib && n.attrib["refid"] !in t ==> r == Err(KeyError(n.attrib["refid"]))
  {
    var id :- Attr(n, "refid");
    FindDefinition(t, id)
  }

  /** `nodes[i]` is the first node that does not resolve, and it raises `e`. */
  predicate FirstUnresolved(nodes: seq<Element>, t: Table, i: int, e: Error) {
    && 0 <= i < |nodes|
    && (forall j :: 0 <= j < i ==> Resolvable(nodes[j], t))
    && Resolve(t, nodes[i]) == Err(e)
  }

  /** Resolves every node in order, aborting with the error of the first that does not resolve. */
  function ResolveAll(t: Table, nodes: seq<Element>): (r: Result<seq<Definition>, Error>)
    ensures r.Ok? <==> forall i :: 0 <= i < |nodes| ==> Resolvable(nodes[i], t)
    ensures r.Ok? ==> |r.value| == |nodes|
    ensures r.Ok? ==> forall i :: 0 <= i < |nodes| ==> r.value[i] == t[nodes[i].attrib["refid"]]
    ensures r.Err? ==> exists i :: FirstUnresolved(nodes, t, i, r.error)
  {
    var resolve := n => Resolve(t, n);
    match MapAll(resolve, nodes)
    case Ok(defs) =>
      assert forall i :: 0 <= i < |nodes| ==> Resolve(t, nodes[i]) == Ok(defs[i]) by {
        forall i | 0 <= i < |nodes| ensures Resolve(t, nodes[i]) == Ok(defs[i]) {
          assert resolve(nodes[i]) == Ok(defs[i]);
        }
      }
      Ok(defs)
    case Err(e) =>
      var i :| 0 <= i < |nodes| && resolve(nodes[i]) == Err(e) && forall j :: 0 <= j < i ==> resolve(nodes[j]).Ok?;
      assert forall j :: 0 <= j < i ==> Resolvable(nodes[j], t) by {
        forall j | 0 <= j < i ensures Resolvable(nodes[j], t) {
          assert resolve(nodes[j]).Ok?;
        }
      }
      assert FirstUnresolved(nodes, t, i, e);
      Err(e)
  }

  /**
   `build_definition_list_by_refid`: one definition per `key` child of
   `root`, in document order, each the table's entry for the child's
   `refid`. The first child without a `refid`, or with one the table does not
   know, aborts with its KeyError.
   */
  function BuildDefinitionListByRefid(root: Element, key: string, t: Table): (r: Result<seq<Definition>, Error>)
    ensures r.Ok? <==> forall i :: 0 <= i < |FindAll(root, key)| ==> Resolvable(FindAll(root, key)[i], t)
    ensures r.Ok? ==> |r.value| == |FindAll(root, key)|
    ensures r.Ok? ==> forall i :: 0 <= i < |r.value| ==> r.value[i] == t[FindAll(root, key)[i].attrib["refid"]]
    ensures r.Ok? && Keyed(t) ==> forall i :: 0 <= i < |r.value| ==> r.value[i].refid.text == FindAll(root, key)[i].attrib["refid"]
    ensures r.Err? ==> exists i :: FirstUnresolved(FindAll(root, key), t, i, r.error)
  {
    ResolveAll(t, FindAll(root, key))
  }

  /**
   `build_definition_list`: the definitions built from every `key` child of
   `root`, in order; what it promises is the contract of `MakeDefinitions`.
   */
  function BuildDefinitionList(root: Element, key: string): (r: Result<seq<Definition>, Error>)
  {
    MakeDefinitions(FindAll(root, key))
  }

  /** The namespaces nested in a namespace, resolved through the table. */
  function ChildNamespaces(d: Definition, t: Table): (r: Result<seq<Definition>, Error>)
    requires d.variant.NamespaceDef?
    ensures r.Ok? <==> forall i :: 0 <= i < |FindAll(d.node, "innernamespace")| ==> Resolvable(FindAll(d.node, "innernamespace")[i], t)
    ensures r.Ok? ==> |r.value| == |FindAll(d.node, "innernamespace")|
    ensures r.Ok? ==> forall i :: 0 <= i < |r.value| ==> r.value[i] == t[FindAll(d.node, "innernamespace")[i].attrib["refid"]]
    ensures r.Ok? && Keyed(t) ==> forall i :: 0 <= i < |r.value| ==> r.value[i].refid.text == FindAll(d.node, "innernamespace")[i].attrib["refid"]
    ensures r.Err? ==> exists i :: FirstUnresolved(FindAll(d.node, "innernamespace"), t, i, r.error)
  {
    BuildDefinitionListByRefid(d.node, "innernamespace", t)
  }

  /** The classes declared in a namespace, resolved through the table. */
  function ChildClasses(d: Definition, t: Table): (r: Result<seq<Definition>, Error>)
    requires d.variant.NamespaceDef?
    ensures r.Ok? <==> forall i :: 0 <= i < |FindAll(d.node, "innerclass")| ==> Resolvable(FindAll(d.node, "innerclass")[i], t)
    ensures r.Ok? ==> |r.value| == |FindAll(d.node, "innerclass")|
    ensures r.Ok? ==> forall i :: 0 <= i < |r.value| ==> r.value[i] == t[FindAll(d.node, "innerclass")[i].attrib["refid"]]
    ensures r.Ok? && Keyed(t) ==> forall i :: 0 <= i < |r.value| ==> r.value[i].refid.text == FindAll(d.node, "innerclass")[i].attrib["refid"]
    ensures r.Err? ==> exists i :: FirstUnresolved(FindAll(d.node, "innerclass"), t, i, r.error)
  {
    BuildDefinitionListByRefid(d.node, "innerclass", t)
  }

  /**
   Memoisation: a cached list is returned as it is; otherwise the freshly
   computed result is returned and, when it succeeded, stored. A failure
   leaves the cache empty.
   */
  function Memoise(cached: Option<seq<Definition>>, computed: Result<seq<Definition>, Error>): (r: (Result<seq<Definition>, Error>, Option<seq<Definition>>))
    ensures cached.Some? ==> r.0 == Ok(cached.value) && r.1 == cached
    ensures cached.None? ==> r.0 == computed
    ensures r.0.Ok? ==> r.1 == Some(r.0.value)
    ensures r.0.Err? ==> r.1.None?
  {
    match cached
    case Some(v) => (Ok(v), cached)
    case None => if computed.Ok? then (computed, Some(computed.value)) else (computed, None)
  }

  /** `child_namespaces` with its cache: the result and the updated cache. */
  function ChildNamespacesCached(d: Definition, t: Table, c: Cache): (r: (Result<seq<Definition>, Error>, Cache))
    requires d.variant.NamespaceDef?
    ensures r.1.classes == c.classes && r.1.functions == c.functions
  {
    var (res, v) := Memoise(c.namespaces, ChildNamespaces(d, t));
    (res, c.(namespaces := v))
  }

  /** `child_classes` with its cache: the result and the updated cache. */
  function ChildClassesCached(d: Definition, t: Table, c: Cache): (r: (Result<seq<Definition>, Error>, Cache))
    requires d.variant.NamespaceDef?
    ensures r.1.namespaces == c.namespaces && r.1.functions == c.functions
  {
    var (res, v) := Memoise(c.classes, ChildClasses(d, t));
    (res, c.(classes := v))
  }

  /**
   The first access to `child_namespaces` yields one definition per
   `innernamespace` element, in order, each carrying that element's `refid`.
   */
  lemma ChildNamespacesFirstAccess(d: Definition, t: Table, c: Cache)
    requires d.variant.NamespaceDef? && c.namespaces.None? && Keyed(t)
    requires ChildNamespacesCached(d, t, c).0.Ok?
    ensures var nodes := FindAll(d.node, "innernamespace");
            var defs := ChildNamespacesCached(d, t, c).0.value;
            && |defs| == |nodes|
            && forall i :: 0 <= i < |defs| ==> "refid" in nodes[i].attrib && defs[i].refid.text == nodes[i].attrib["refid"]
    ensures ChildNamespacesCached(d, t, c).1.namespaces == Some(ChildNamespacesCached(d, t, c).0.value)
  {
  }

  /**
   Once `child_namespaces` has succeeded, every later access returns the
   same list and leaves the cache as it is, even against another table.
   */
  lemma ChildNamespacesStable(d: Definition, t: Table, t2: Table, c: Cache)
    requires d.variant.NamespaceDef?
    requires ChildNamespacesCached(d, t, c).0.Ok?
    ensures var (r1, c1) := ChildNamespacesCached(d, t, c);
            ChildNamespacesCached(d, t2, c1) == (r1, c1)
  {
  }

  /** A failed first access to `child_namespaces` caches nothing, so the next access recomputes. */
  lemma ChildNamespacesRetry(d: Definition, t: Table, t2: Table, c: Cache)
    requires d.variant.NamespaceDef? && c.namespaces.None?
    requires ChildNamespacesCached(d, t, c).0.Err?
    ensures ChildNamespacesCached(d, t2, ChildNamespacesCached(d, t, c).1).0 == ChildNamespaces(d, t2)
  {
  }

  /**
   The first access to `child_classes` yields one definition per
   `innerclass` element, in order, each carrying that element's `refid`.
   */
  lemma ChildClassesFirstAccess(d: Definition, t: Table, c: Cache)
    requires d.variant.NamespaceDef? && c.classes.None? && Keyed(t)
    requires ChildClassesCached(d, t, c).0.Ok?
    ensures var nodes := FindAll(d.node, "innerclass");
            var defs := ChildClassesCached(d, t, c).0.value;
            && |defs| == |nodes|
            && forall i :: 0 <= i < |defs| ==> "refid" in nodes[i].attrib && defs[i].refid.text == nodes[i].attrib["refid"]
    ensures ChildClassesCached(d, t, c).1.classes == Some(ChildClassesCached(d, t, c).0.value)
  {
  }

  /**
   Once `child_classes` has succeeded, every later access returns the same
   list and leaves the cache as it is, even against another table.
   */
  lemma ChildClassesStable(d: Definition, t: Table, t2: Table, c: Cache)
    requires d.variant.NamespaceDef?
    requires ChildClassesCached(d, t, c).0.Ok?
    ensures var (r1, c1) := ChildClassesCached(d, t, c);
            ChildClassesCached(d, t2, c1) == (r1, c1)
  {
  }

  /** A failed first access to `child_classes` caches nothing, so the next access recomputes. */
  lemma ChildClassesRetry(d: Definition, t: Table, t2: Table, c: Cache)
    requires d.variant.NamespaceDef? && c.classes.None?
    requires ChildClassesCached(d, t, c).0.Err?
    ensures ChildClassesCached(d, t2, ChildClassesCached(d, t, c).1).0 == ChildClasses(d, t2)
  {
  }

  /** The members of a public-function section: its `memberdef` children, built in place. */
  function Members(sd: Element): Result<seq<Definition>, Error> {
    BuildDefinitionList(sd, "memberdef")
  }

  /** `child_functions` of a class: the scan over its `sectiondef` children. */
  method ChildFunctions(d: Definition) returns (r: Result<seq<Definition>, Error>, stored: seq<Definition>)
    requires d.variant.ClassDef?
    ensures var sections := FindAll(d.node, "sectiondef");
            r.Ok? <==> forall j :: 0 <= j < |sections| ==> SectionReadable(sections[j], Members)
    ensures r.Ok? ==> stored == r.value && LatestPublic(FindAll(d.node, "sectiondef"), |FindAll(d.node, "sectiondef")|, r.value, Members)
    ensures r.Err? ==> exists k :: StopsAt(FindAll(d.node, "sectiondef"), k, stored, Members)
                                   && FailsWith(FindAll(d.node, "sectiondef")[k], Members, r.error)
  {
    r, stored := ScanSections(FindAll(d.node, "sectiondef"), Members);
  }

  /**
   `child_functions` with its cache. A cached list is returned as it is. On
   the first access the cache is filled whatever happens, because `child_functions`
   stores the empty list before scanning: a failed first access leaves the
   list held at the failure, and a later access returns that list.
   */
  method ChildFunctionsCached(d: Definition, c: Cache) returns (r: Result<seq<Definition>, Error>, c': Cache)
    requires d.variant.ClassDef?
    ensures c.functions.Some? ==> r == Ok(c.functions.value) && c' == c
    ensures c'.namespaces == c.namespaces && c'.classes == c.classes && c'.functions.Some?
    ensures c.functions.None? && r.Ok? ==> c'.functions == Some(r.value)
                                           && LatestPublic(FindAll(d.node, "sectiondef"), |FindAll(d.node, "sectiondef")|, r.value, Members)
    ensures c.functions.None? ==> (r.Ok? <==> forall j :: 0 <= j < |FindAll(d.node, "sectiondef")| ==> SectionReadable(FindAll(d.node, "sectiondef")[j], Members))
    ensures c.functions.None? && r.Err? ==> exists k :: StopsAt(FindAll(d.node, "sectiondef"), k, c'.functions.value, Members)
                                                       && FailsWith(FindAll(d.node, "sectiondef")[k], Members, r.error)
  {
    if c.functions.Some? {
      return Ok(c.functions.value), c;
    }
    var stored;
    r, stored := ChildFunctions(d);
    c' := c.(functions := Some(stored));
  }
}

=== FILE: sections.dfy ===
/**
 The section scan behind a class's member functions. A class document
 groups its members into `sectiondef` elements, each with a `kind`; the scan
 walks them in order, and every section whose kind is `public-func`
 replaces the member list with that section's members, so the last such
 section wins. How a section's members are built is a parameter.
 */
module Sections {
  import opened Wrappers
  import opened Xml
  import opened Definitions

  /** The section's `kind` says it lists public member functions. */
  predicate IsPublicFunc(sd: Element) {
    "kind" in sd.attrib && sd.attrib["kind"] == "public-func"
  }

  /** The section has a `kind`, and if it is the public-function section its members can be built. */
  predicate SectionReadable(sd: Element, members: Element -> Result<seq<Definition>, Error>) {
    "kind" in sd.attrib && (IsPublicFunc(sd) ==> members(sd).Ok?)
  }

  /**
   The index of the last public-function section among the first `n`
   sections, or `None` when there is none.
   */
  function LastPublic(sections: seq<Element>, n: int): (r: Option<int>)
    requires 0 <= n <= |sections|
    ensures r.None? <==> forall j :: 0 <= j < n ==> !IsPublicFunc(sections[j])
    ensures r.Some? ==> 0 <= r.value < n && IsPublicFunc(sections[r.value])
    ensures r.Some? ==> forall j :: r.value < j < n ==> !IsPublicFunc(sections[j])
    decreases n
  {
    if n == 0 then None
    else if IsPublicFunc(sections[n - 1]) then Some(n - 1)
    else LastPublic(sections, n - 1)
  }

  /**
   `fs` is the member list held after scanning the first `n` sections: empty
   when none of them is the public-function section, otherwise the members of
   the last one that is.
   */
  predicate LatestPublic(sections: seq<Element>, n: int, fs: seq<Definition>, members: Element -> Result<seq<Definition>, Error>)
    requires 0 <= n <= |sections|
  {
    match LastPublic(sections, n)
    case None => fs == []
    case Some(i) => members(sections[i]) == Ok(fs)
  }

  /** A public-function section whose members build replaces the member list with them. */
  lemma ScanPublic(sections: seq<Element>, i: int, fs: seq<Definition>, members: Element -> Result<seq<Definition>, Error>)
    requires 0 <= i < |sections| && IsPublicFunc(sections[i])
    requires members(sections[i]) == Ok(fs)
    requires forall j :: 0 <= j < i ==> SectionReadable(sections[j], members)
    ensures forall j :: 0 <= j < i + 1 ==> SectionReadable(sections[j], members)
    ensures LatestPublic(sections, i + 1, fs, members)
  {
  }

  /** A section of another kind leaves the member list as it was. */
  lemma ScanOther(sections: seq<Element>, i: int, fs: seq<Definition>, members: Element -> Result<seq<Definition>, Error>)
    requires 0 <= i < |sections| && "kind" in sections[i].attrib && !IsPublicFunc(sections[i])
    requires LatestPublic(sections, i, fs, members)
    requires forall j :: 0 <= j < i ==> SectionReadable(sections[j], members)
    ensures forall j :: 0 <= j < i + 1 ==> SectionReadable(sections[j], members)
    ensures LatestPublic(sections, i + 1, fs, members)
  {
  }

  /**
   The scan stops at section `k`: every earlier section was readable, this
   one is not, and `fs` is the member list held at that point.
   */
  predicate StopsAt(sections: seq<Element>, k: int, fs: seq<Definition>, members: Element -> Result<seq<Definition>, Error>) {
    && 0 <= k < |sections|
    && !SectionReadable(sections[k], members)
    && (forall j :: 0 <= j < k ==> SectionReadable(sections[j], members))
    && LatestPublic(sections, k, fs, members)
  }

  /**
   The error an unreadable section raises: `KeyError("kind")` when it has no
   `kind`, otherwise the error of building its members.
   */
  predicate FailsWith(sd: Element, members: Element -> Result<seq<Definition>, Error>, e: Error) {
    if "kind" !in sd.attrib then e == KeyError("kind") else IsPublicFunc(sd) && members(sd) == Err(e)
  }

  /** An unreadable section stops the scan, so not every section is readable. */
  lemma ScanStops(sections: seq<Element>, i: int, fs: seq<Definition>, members: Element -> Result<seq<Definition>, Error>)
    requires 0 <= i < |sections| && !SectionReadable(sections[i], members)
    requires forall j :: 0 <= j < i ==> SectionReadable(sections[j], members)
    requires LatestPublic(sections, i, fs, members)
    ensures StopsAt(sections, i, fs, members)
    ensures !(forall j :: 0 <= j < |sections| ==> SectionReadable(sections[j], members))
  {
  }

  /**
   The scan of `child_functions` over a class's sections: the list starts
   empty and each public-function section replaces it, so the last one wins.
   A section without `kind` aborts the scan with `KeyError("kind")`, and a
   member that cannot be built aborts it with that member's error. `stored`
   is the list held when the scan ended: the result on success, and on
   failure the list held when the scan stopped.
   */
  method ScanSections(sections: seq<Element>, members: Element -> Result<seq<Definition>, Error>) returns (r: Result<seq<Definition>, Error>, stored: seq<Definition>)
    ensures r.Ok? <==> forall j :: 0 <= j < |sections| ==> SectionReadable(sections[j], members)
    ensures r.Ok? ==> stored == r.value && LatestPublic(sections, |sections|, r.value, members)
    ensures r.Err? ==> exists k :: StopsAt(sections, k, stored, members) && FailsWith(sections[k], members, r.error)
  {
    var fs: seq<Definition> := [];
    var i := 0;
    while i < |sections|
      invariant 0 <= i <= |sections|
      invariant forall j :: 0 <= j < i ==> SectionReadable(sections[j], members)
      invariant LatestPublic(sections, i, fs, members)
    {
      var failure, next := ScanStep(sections, i, fs, members);
      if failure.Some? {
        assert !SectionReadable(sections[i], members);
        return Err(failure.value), fs;
      }
      fs := next;
      i := i + 1;
    }
    return Ok(fs), fs;
  }

  /**
   One step of the scan: section `i` either stops it with an error, or is
   readable and gives the member list held after it.
   */
  method ScanStep(sections: seq<Element>, i: int, fs: seq<Definition>, members: Element -> Result<seq<Definition>, Error>) returns (failure: Option<Error>, next: seq<Definition>)
    requires 0 <= i < |sections|
    requires forall j :: 0 <= j < i ==> SectionReadable(sections[j], members)
    requires LatestPublic(sections, i, fs, members)
    ensures failure.Some? ==> StopsAt(sections, i, fs, members) && FailsWith(sections[i], members, failure.value)
    ensures failure.None? ==> (forall j :: 0 <= j < i + 1 ==> SectionReadable(sections[j], members)) && LatestPublic(sections, i + 1, next, members)
  {
    var sd := sections[i];
    if "kind" !in sd.attrib {
      ScanStops(sections, i, fs, members);
      return Some(KeyError("kind")), fs;
    }
    if sd.attrib["kind"] == "public-func" {
      var built := members(sd);
      if built.Err? {
        ScanStops(sections, i, fs, members);
        return Some(built.error), fs;
      }
      ScanPublic(sections, i, built.value, members);
      return None, built.value;
    }
    ScanOther(sections, i, fs, members);
    return None, fs;
  }
}

=== FILE: wrappers.dfy ===
/**
 Failure-compatible wrappers used throughout the model: `Option` for Python's
 `None`, `Result` for a computation that may raise, and `MapAll`, the
 "build a list, abort on the first exception" loop that the symbol-graph
 builder uses for every list it constructs.
 */
module Wrappers {

  /** A value or Python's `None`. */
  datatype Option<+T> = None | Some(value: T) {

    /** The value, or `default` when this is `None`. */
    function GetOr(default: T): T {
      match this
      case Some(v) => v
      case None => default
    }
  }

  /** A value, or the exception that aborted the computation. */
  datatype Result<+T, +E> = Ok(value: T) | Err(error: E) {

    predicate IsFailure() {
      Err?
    }

    function PropagateFailure<U>(): Result<U, E>
      requires Err?
    {
      Err(error)
    }

    function Extract(): T
      requires Ok?
    {
      value
    }
  }

  /**
   Applies `f` to every element of `xs` in order, as a Python list
   comprehension does: the first element on which `f` fails aborts the whole
   list with that element's error.
   */
  function MapAll<A, B, E>(f: A -> Result<B, E>, xs: seq<A>): (r: Result<seq<B>, E>)
    ensures r.Ok? <==> forall i :: 0 <= i < |xs| ==> f(xs[i]).Ok?
    ensures r.Ok? ==> |r.value| == |xs|
    ensures r.Ok? ==> forall i :: 0 <= i < |xs| ==> f(xs[i]) == Ok(r.value[i])
    ensures r.Err? ==> exists i :: 0 <= i < |xs| && f(xs[i]) == Err(r.error)
                                   && forall j :: 0 <= j < i ==> f(xs[j]).Ok?
  {
    if |xs| == 0 then Ok([])
    else
      match f(xs[0])
      case Err(e) => Err(e)
      case Ok(y) =>
        match MapAll(f, xs[1..])
        case Err(e) =>
          assert exists i :: 1 <= i < |xs| && f(xs[i]) == Err(e)
                             && forall j :: 0 <= j < i ==> f(xs[j]).Ok? by {
            var k :| 0 <= k < |xs[1..]| && f(xs[1..][k]) == Err(e)
                     && forall j :: 0 <= j < k ==> f(xs[1..][j]).Ok?;
            assert forall j :: 1 <= j < k + 1 ==> f(xs[j]).Ok? by {
              forall j | 1 <= j < k + 1 ensures f(xs[j]).Ok? {
                assert xs[j] == xs[1..][j - 1];
              }
            }
          }
          Err(e)
        case Ok(ys) =>
          assert forall i :: 1 <= i < |xs| ==> xs[i] == xs[1..][i - 1];
          Ok([y] + ys)
  }
}

=== FILE: xml.dfy ===
/**
 The already-parsed XML tree the symbol-graph builder reads, and the handful
 of ElementTree queries it uses on it: `attrib[key]`, `attrib.get(key)`,
 `find(tag)`, `findall(tag)`, `findtext(tag, default)` and `iter(tag)`.
 Parsing itself is not modelled; a document is given as its root element.
 */
module Xml {
  import opened Wrappers

  /** One element: tag, attribute map, optional leading text, ordered children. */
  datatype Element = Element(tag: string, attrib: map<string, string>, text: Option<string>, children: seq<Element>)

  /** The Python exceptions the builder can raise while reading a tree. */
  datatype Error =
    | KeyError(key: string)        // a missing attribute, or an id absent from the table
    | MissingElement(tag: string)  // `find` returned None and the result was used
    | MissingText(tag: string)     // an element's text was None where a string was needed
    | IOError(path: string)        // a document that cannot be read

  /** `attrib[key]`: raises KeyError when the attribute is absent. */
  function Attr(e: Element, key: string): (r: Result<string, Error>)
    ensures r.Ok? <==> key in e.attrib
    ensures r.Ok? ==> r.value == e.attrib[key]
    ensures r.Err? ==> r.error == KeyError(key)
  {
    if key in e.attrib then Ok(e.attrib[key]) else Err(KeyError(key))
  }

  /** `attrib.get(key)`: None when the attribute is absent. */
  function Get(e: Element, key: string): (r: Option<string>)
    ensures r.Some? <==> key in e.attrib
    ensures r.Some? ==> r.value == e.attrib[key]
  {
    if key in e.attrib then Some(e.attrib[key]) else None
  }

  /** `cs[i]` is the first element of `cs` whose tag is `tag`. */
  predicate FirstWithTag(cs: seq<Element>, tag: string, i: int) {
    && 0 <= i < |cs|
    && cs[i].tag == tag
    && forall j :: 0 <= j < i ==> cs[j].tag != tag
  }

  /** No element of `cs` has tag `tag`. */
  predicate NoneWithTag(cs: seq<Element>, tag: string) {
    forall i :: 0 <= i < |cs| ==> cs[i].tag != tag
  }

  function FindIn(cs: seq<Element>, tag: string): (r: Option<Element>)
    ensures r.None? <==> NoneWithTag(cs, tag)
    ensures r.Some? ==> exists i :: FirstWithTag(cs, tag, i) && cs[i] == r.value
  {
    if |cs| == 0 then None
    else if cs[0].tag == tag then
      assert FirstWithTag(cs, tag, 0);
      Some(cs[0])
    else
      var r := FindIn(cs[1..], tag);
      if r.Some? then
        var k :| FirstWithTag(cs[1..], tag, k) && cs[1..][k] == r.value;
        assert FirstWithTag(cs, tag, k + 1);
        r
      else
        assert forall i :: 1 <= i < |cs| ==> cs[i] == cs[1..][i - 1];
        r
  }

  /** `e.find(tag)`: the first direct child with that tag, or None. */
  function Find(e: Element, tag: string): (r: Option<Element>)
    ensures r.None? <==> NoneWithTag(e.children, tag)
    ensures r.Some? ==> exists i :: FirstWithTag(e.children, tag, i) && e.children[i] == r.value
  {
    FindIn(e.children, tag)
  }

  /** The elements of `cs` whose tag is `tag`, in their original order. */
  function Filter(cs: seq<Element>, tag: string): (r: seq<Element>)
    ensures |r| <= |cs|
    ensures forall x :: x in r ==> x in cs && x.tag == tag
    ensures forall x :: x in cs && x.tag == tag ==> x in r
  {
    if |cs| == 0 then []
    else
      var rest := Filter(cs[1..], tag);
      assert forall x :: x in cs ==> x == cs[0] || x in cs[1..];
      if cs[0].tag == tag then [cs[0]] + rest else rest
  }

  /** `e.findall(tag)`: every direct child with that tag, in document order. */
  function FindAll(e: Element, tag: string): (r: seq<Element>)
    ensures |r| <= |e.children|
    ensures forall x :: x in r <==> x in e.children && x.tag == tag
  {
    Filter(e.children, tag)
  }

  /** `findall` keeps document order: a child appended later is listed later. */
  lemma {:induction false} FilterAppend(cs: seq<Element>, x: Element, tag: string)
    ensures Filter(cs + [x], tag) == Filter(cs, tag) + (if x.tag == tag then [x] else [])
    decreases |cs|
  {
    if |cs| == 0 {
      assert cs + [x] == [x];
    } else {
      assert (cs + [x])[1..] == cs[1..] + [x];
      FilterAppend(cs[1..], x, tag);
    }
  }

  /** `find` returns exactly the head of what `findall` returns. */
  lemma {:induction false} FindIsFirstOfFindAll(cs: seq<Element>, tag: string)
    ensures FindIn(cs, tag) == (if Filter(cs, tag) == [] then None else Some(Filter(cs, tag)[0]))
    decreases |cs|
  {
    if |cs| > 0 && cs[0].tag != tag {
      FindIsFirstOfFindAll(cs[1..], tag);
    }
  }

  /**
   `e.findtext(tag, default)`: `default` when no child has that tag, otherwise
   the first such child's text, with a missing text read as the empty string.
   */
  function FindText(e: Element, tag: string, default: string): (r: string)
    ensures NoneWithTag(e.children, tag) ==> r == default
    ensures forall i :: FirstWithTag(e.children, tag, i) && e.children[i].text.Some? ==> r == e.children[i].text.value
    ensures forall i :: FirstWithTag(e.children, tag, i) && e.children[i].text.None? ==> r == ""
  {
    match Find(e, tag)
    case None => default
    case Some(c) =>
      assert forall i, j :: FirstWithTag(e.children, tag, i) && FirstWithTag(e.children, tag, j) ==> i == j;
      c.text.GetOr("")
  }

  /**
   `e.iter(tag)`: every element of the subtree rooted at `e` (the root
   included) whose tag is `tag`, in document (pre-)order.
   */
  function Iter(e: Element, tag: string): (r: seq<Element>)
    ensures forall x :: x in r ==> x.tag == tag
    ensures e.tag == tag ==> |r| > 0 && r[0] == e
    decreases e, 1
  {
    (if e.tag == tag then [e] else []) + IterAll(e.children, tag)
  }

  /** `Iter` over a sequence of sibling subtrees, concatenated in order. */
  function IterAll(cs: seq<Element>, tag: string): (r: seq<Element>)
    ensures forall x :: x in r ==> x.tag == tag
    decreases cs, 0
  {
    if |cs| == 0 then [] else Iter(cs[0], tag) + IterAll(cs[1..], tag)
  }

  /** Every direct child `findall` lists is also listed by `iter`. */
  lemma {:induction false} FindAllWithinIter(e: Element, tag: string)
    ensures forall x :: x in FindAll(e, tag) ==> x in Iter(e, tag)
  {
    forall x | x in FindAll(e, tag) ensures x in Iter(e, tag) {
      var i :| 0 <= i < |e.children| && e.children[i] == x;
      ChildWithinIterAll(e.children, i, tag);
    }
  }

  lemma {:induction false} ChildWithinIterAll(cs: seq<Element>, i: int, tag: string)
    requires 0 <= i < |cs| && cs[i].tag == tag
    ensures cs[i] in IterAll(cs, tag)
    decreases i
  {
    if i > 0 {
      ChildWithinIterAll(cs[1..], i - 1, tag);
    }
  }

  /** `x` is `e` itself or lies anywhere in one of its subtrees. */
  predicate Within(e: Element, x: Element)
    decreases e
  {
    x == e || exists i :: 0 <= i < |e.children| && Within(e.children[i], x)
  }

  /** `iter` misses nothing: every element of the subtree with the tag is listed. */
  lemma {:induction false} IterComplete(e: Element, x: Element, tag: string)
    requires Within(e, x) && x.tag == tag
    ensures x in Iter(e, tag)
    decreases e
  {
    if x != e {
      var i :| 0 <= i < |e.children| && Within(e.children[i], x);
      IterComplete(e.children[i], x, tag);
      IterAllContains(e.children, i, x, tag);
    }
  }

  /** What `iter` lists in one sibling subtree is listed for the siblings together. */
  lemma {:induction false} IterAllContains(cs: seq<Element>, i: int, x: Element, tag: string)
    requires 0 <= i < |cs| && x in Iter(cs[i], tag)
    ensures x in IterAll(cs, tag)
    decreases i
  {
    if i > 0 {
      assert cs[1..][i - 1] == cs[i];
      IterAllContains(cs[1..], i - 1, x, tag);
    }
  }

  /** `iter` lists nothing from outside the subtree. */
  lemma {:induction false} IterWithin(e: Element, x: Element, tag: string)
    requires x in Iter(e, tag)
    ensures Within(e, x)
    decreases e, 1
  {
    if x != e {
      IterAllWithin(e.children, x, tag);
    }
  }

  /** Whatever `iter` lists for a run of siblings lies in one of their subtrees. */
  lemma {:induction false} IterAllWithin(cs: seq<Element>, x: Element, tag: string)
    requires x in IterAll(cs, tag)
    ensures exists i :: 0 <= i < |cs| && Within(cs[i], x)
    decreases cs, 0
  {
    if x in Iter(cs[0], tag) {
      IterWithin(cs[0], x, tag);
    } else {
      IterAllWithin(cs[1..], x, tag);
      var i :| 0 <= i < |cs[1..]| && Within(cs[1..][i], x);
      assert cs[1..][i] == cs[i + 1];
    }
  }

  /**
   `iter` keeps document order across siblings: the listing for two runs of
   siblings is the first run's listing followed by the second's.
   */
  lemma {:induction false} IterAllAppend(cs: seq<Element>, ds: seq<Element>, tag: string)
    ensures IterAll(cs + ds, tag) == IterAll(cs, tag) + IterAll(ds, tag)
    decreases |cs|
  {
    if |cs| == 0 {
      assert cs + ds == ds;
    } else {
      assert (cs + ds)[0] == cs[0] && (cs + ds)[1..] == cs[1..] + ds;
      IterAllAppend(cs[1..], ds, tag);
    }
  }
}
